=== FILE: README.md ===
# chronosTask timer core in Dafny

This project models the core of chronosTask, a browser time tracker. Users
create named timers, either with a target duration in minutes or without one.
They start, pause, reset, edit and delete the timers. The day's total ("total
today") must survive resets and deletions. When the calendar date changes, the
day is closed into a history ledger. The model covers:

- **Timer engine.** This is the state the timer provider keeps: timers, history,
  the last active date and the accumulator of seconds banked by resets and
  removals. The model covers its transitions: add, remove, toggle, the periodic
  tick, reset, stop-all and edit. It also covers "total today", the day rollover
  and loading from and saving to storage (modules `TimerEngine`, `EngineLaws`,
  `DayRollover`).
- **Clock formatting.** `formatTime` (`MM:SS` / `HH:MM:SS`) and
  `formatTimeVerbose` (`45s`, `2min`, `1h`, `1h 1min`). They come with a reader
  that parses the clock text back (module `TimeFormat`).
- **History panel.** Days sorted most recent first, the all-time total, the
  rounded average per day and the session label (module `HistoryPanel`).
- **Timer card.** The completion test and clock display, and the alarm latch
  that rings once per completion. Also the enabled state of the buttons, and
  what Space, Backspace and Escape do on the card and in the full-screen (Zen)
  overlay (module `TimerCard`).
- **Edit dialog.** How the dialog prefills its fields and builds the update
  object on submit (module `EditDialog`).

Supporting modules: `Wrappers` (an `Option`), `Sums` (sums of integer
sequences), `Text` (JavaScript `trim`, decimal text, `split(":")`/`join(":")`)
and `TimerTypes` (the `Timer`, `DailyRecord` and `AppState` records).

How JavaScript behaviour is modelled:

- **Parameters instead of the environment.** Clock readings (`Date.now()`), the
  current date, fresh ids and creation stamps become parameters (`now`, `today`,
  `id`, `createdAt`). One transition reads one `now`.
- **Falsy stamps.** A start stamp of `0` counts as absent, because JavaScript
  reads it as false (`HasStamp`).
- **Rounding.** `Math.floor` of a division by a positive constant is Dafny's
  `/`. The truncating `%` is written out for negative inputs (`JsRem`).
  `Math.round(t / n)` is rounding half up.
- **Unbounded integers.** JavaScript numbers are doubles; the model uses
  unbounded `int`. See "## Left out" for what that leaves unmodelled.

Where the code departs from its evident intent (comments, types, the names of things), the model follows the code:

- **Pause segments are not clamped.** A pause banks the floored segment as is,
  so a clock that went back lowers the count (`EngineLaws.BackwardClockLowersElapsed`).
- **Toggle does not check completion.** Toggling a completed timer starts it
  again, and the next tick completes it once more
  (`EngineLaws.ToggleRestartsCompleted`). The card disables its play button for
  a completed timer, but Space on the card still toggles whenever the elapsed
  count is positive (`TimerCard.CardSpace`), so the keyboard can restart it.
- **No clamping of minutes or durations.** `addTimer` and `editTimer` take
  minutes and durations as given, negative ones included.
- **The stored snapshot has an extra field.** The declared `AppState` type has
  no `accumulatedTodaySeconds`, but the provider saves and loads it (`DayRollover.Stored`).
- **The rollover uses stored seconds.** It sums the timers' stored seconds, not
  their live seconds; see Findings.

## Model

| member | source | states |
|---|---|---|
| TimerEngine.SegmentSeconds | src/context/timer-context.tsx:193 | A running segment is whole seconds rounded down: `r*1000 <= now-start < r*1000+1000`; it is negative exactly when the clock is behind the stamp |
| TimerEngine.FindIndex | src/context/timer-context.tsx:172 | `find` by id yields the FIRST timer with that id, and nothing exactly when no timer has it |
| TimerEngine.WithoutId | src/context/timer-context.tsx:182 | The filter keeps only timers of other ids, all drawn from the list; every timer of another id survives; a list without that id is unchanged |
| TimerEngine.WithoutIdAppend | src/context/timer-context.tsx:182 | Filtering a concatenation is filtering each part and concatenating, so the survivors keep their relative order |
| TimerEngine.WithoutUniqueId | src/context/timer-context.tsx:182 | With unique ids, filtering out an id removes exactly that one timer and keeps the others in order |
| TimerEngine.NameOrDefault | src/context/timer-context.tsx:160 | A stored name is never blank and carries no surrounding whitespace: a blank input gives "Timer sin nombre", any other input gives its trim |
| TimerEngine.PauseOrStart | src/context/timer-context.tsx:189-198 | Pausing banks the live seconds and clears the stamp; starting stamps `now` and keeps the count; either way the live seconds at `now` are unchanged and the identity fields are kept |
| TimerEngine.TickOne | src/context/timer-context.tsx:133-143 | A timer changes exactly when it runs with a stamp and its live seconds reach a positive target; it is then stopped at exactly its target; for a running timer with a start stamp and a target the live seconds become the lesser of the live seconds and the target |
| TimerEngine.StopOne | src/context/timer-context.tsx:228-233 | Each timer ends stopped and stamp-less with its live seconds banked; a paused timer keeps its count |
| TimerEngine.EditOne | src/context/timer-context.tsx:241-249 | A given name is trimmed with the default fallback and a given duration taken as is; absent fields, the clock fields and the identity stay |
| TimerEngine.AddTimer | src/context/timer-context.tsx:157-168 | Exactly one new stopped, zero, stamp-less timer is appended with the cleaned name and `minutes*60` seconds; existing timers and the rest of the state are kept |
| TimerEngine.RemoveTimer | src/context/timer-context.tsx:170-184 | The first timer with the id has its live seconds banked when positive; every timer with the id is dropped; an unknown id changes nothing |
| TimerEngine.ToggleTimer | src/context/timer-context.tsx:186-203 | Timers with the id are paused or started, all others are untouched, the accumulator and the ledger are kept |
| TimerEngine.Tick | src/context/timer-context.tsx:132-145 | The tick is the per-timer completion step applied to every timer, with nothing else changed |
| TimerEngine.ResetTimer | src/context/timer-context.tsx:205-223 | The first timer with the id has its live seconds banked when positive; timers with the id are zeroed and stopped; an unknown id changes nothing |
| TimerEngine.StopAllTimers | src/context/timer-context.tsx:225-236 | Every timer ends stopped with its live seconds at one shared instant banked; identity fields kept |
| TimerEngine.EditTimer | src/context/timer-context.tsx:238-254 | Only paused timers with the id are edited; running timers are left unchanged (the edit is dropped), other ids untouched, an unknown id changes nothing |
| EngineLaws.ToggleKeepsTotal | src/context/timer-context.tsx:256-265 | Pausing or starting never changes "total today" at that instant |
| EngineLaws.StopAllKeepsTotal | src/context/timer-context.tsx:225-236 | Stopping all timers never changes "total today" at that instant |
| EngineLaws.EditKeepsTotal | src/context/timer-context.tsx:238-254 | Editing never changes "total today" |
| EngineLaws.AddKeepsTotal | src/context/timer-context.tsx:157-168 | Adding a timer never changes "total today" |
| EngineLaws.ResetKeepsTotal | src/context/timer-context.tsx:205-223 | With unique ids a reset moves the target's live seconds into the accumulator, so "total today" is unchanged unless the target's live count was negative (then it rises by its magnitude) |
| EngineLaws.RemoveKeepsTotal | src/context/timer-context.tsx:170-184 | With unique ids a deletion preserves "total today" in the same way as a reset |
| EngineLaws.RemoveKeepsOthers | src/context/timer-context.tsx:182 | With unique ids the deleted timer is gone and all others remain in their order |
| EngineLaws.TickNeverRaisesTotal | src/context/timer-context.tsx:139-141 | A tick can only cut overshoot past a target: "total today" never grows |
| EngineLaws.TickLeavesNothingOverdue | src/context/timer-context.tsx:139-141 | After a tick no running timer with a start stamp is at or past a positive target; a running timer without a stamp is skipped, as the tick skips it |
| EngineLaws.TickIdempotent | src/context/timer-context.tsx:132-145 | A second tick at the same instant changes nothing |
| EngineLaws.PauseResumeBounded | src/context/timer-context.tsx:190-197 | Pause-then-resume keeps the timer running from the resume stamp and never counts more than running on; it loses the pause plus under two seconds of rounding |
| EngineLaws.ToggleKeepsElapsedNonNegative | src/context/timer-context.tsx:193-194 | With the clock not behind the stamp, a toggle keeps the banked count non-negative |
| EngineLaws.BackwardClockLowersElapsed | src/context/timer-context.tsx:193 | A concrete pause after the clock went back 8 s takes a 5 s count to -3 |
| EngineLaws.ToggleRestartsCompleted | src/context/timer-context.tsx:195-198 | A completed paused timer is started by a toggle and stopped at its target again by the next tick |
| EngineLaws.ScenarioFocus | src/context/timer-context.tsx:186-203 | An unbounded timer shows 5 s live after five seconds and pausing then banks exactly 5 s |
| EngineLaws.ScenarioPomodoro | src/context/timer-context.tsx:132-145 | A one-minute timer is completed, with 60 s banked and stopped, by the first tick at or after a minute |
| EngineLaws.AddKeepsValid | src/context/timer-context.tsx:157-168 | Adding a timer with a fresh id keeps unique ids, consistent stamps, clean names and one record per date |
| EngineLaws.RemoveKeepsValid | src/context/timer-context.tsx:170-184 | Deletion keeps the invariant |
| EngineLaws.ToggleKeepsValid | src/context/timer-context.tsx:186-203 | Toggling keeps the invariant |
| EngineLaws.TickKeepsValid | src/context/timer-context.tsx:132-145 | The tick keeps the invariant |
| EngineLaws.ResetKeepsValid | src/context/timer-context.tsx:205-223 | Reset keeps the invariant |
| EngineLaws.StopAllKeepsValid | src/context/timer-context.tsx:225-236 | Stop-all keeps the invariant |
| EngineLaws.EditKeepsValid | src/context/timer-context.tsx:238-254 | Editing keeps the invariant |
| DayRollover.Snapshot | src/context/timer-context.tsx:101 | A closed day records each timer marked not running, everything else (the stamp included) kept |
| DayRollover.AppendOnce | src/context/timer-context.tsx:104-108 | The record is appended only when its date is not yet in the ledger; afterwards the ledger has a record for that date |
| DayRollover.CloseDay | src/context/timer-context.tsx:97-115 | On a date change the outgoing day is recorded (once) when it has time or timers; all timers are zeroed and stopped, the accumulator emptied and the new date taken |
| DayRollover.Rollover | src/context/timer-context.tsx:89-117 | As written: on a date change the day total is the accumulator plus the stored seconds; on the same date nothing changes |
| DayRollover.RolloverLive | src/context/timer-context.tsx:95 | Corrected: on a date change the day total is "total today" at the instant of the change |
| DayRollover.AppendOnceIdempotent | src/context/timer-context.tsx:104-108 | Running the guarded ledger update twice appends at most one record |
| DayRollover.AppendOnceKeepsUniqueDates | src/context/timer-context.tsx:105-106 | The existence guard keeps one record per date |
| DayRollover.RolloverIdempotent | src/context/timer-context.tsx:94 | A second rollover on the same day is a no-op |
| DayRollover.RolloverEmptiesDay | src/context/timer-context.tsx:111-114 | After a rollover nothing runs and "total today" is 0 |
| DayRollover.RolloverKeepsValid | src/context/timer-context.tsx:89-117 | The rollover keeps the engine invariant, one record per date included |
| DayRollover.RolloverRecordsPausedTotal | src/context/timer-context.tsx:95-107 | With no open segment the recorded day total equals "total today" and exactly one record is appended |
| DayRollover.RolloverLiveRecordsTotal | src/context/timer-context.tsx:95-107 | The corrected rollover appends exactly one record holding "total today", and the ledger's all-time sum grows by exactly that |
| DayRollover.RolloverDropsOpenSegment | src/context/timer-context.tsx:95 | Counterexample: paused 120 s plus running 30 s banked + 10 s open is 160 s today, but the rollover as written records 150 s |
| DayRollover.Persist | src/context/timer-context.tsx:122 | The saved snapshot carries the timers, the ledger, the date and the accumulator |
| DayRollover.Hydrate | src/context/timer-context.tsx:79-86 | Loading takes the snapshot as is and reads a missing accumulator as 0; no snapshot gives an empty state dated today |
| DayRollover.HydratePersist | src/context/timer-context.tsx:84 | Saving then loading gives back the same state, accumulator included |
| Text.Trim | src/components/EditTimerDialog.tsx:47-48 | The result has no surrounding whitespace and is what remains after cutting whitespace off both ends; it is empty exactly for all-whitespace input, and trimmed input is returned unchanged |
| Text.NatToString | src/lib/time.ts:9 | The decimal text of a natural number: non-empty digits whose value is the number, without a leading zero, one digit exactly below 10 |
| Text.IntToString | src/lib/time.ts:9 | Non-negative numbers print as their digits, negative ones as a minus sign and the digits of the magnitude |
| Text.PadZero2Shape | src/lib/time.ts:9 | `padStart(2, "0")`: at least two characters, the original text at the end, zeros in front |
| Text.PadZero2Value | src/lib/time.ts:9 | Zero padding keeps a digit string's value |
| Text.SplitJoin | src/lib/time.ts:15 | Splitting at ':' undoes joining with ':' for colon-free parts |
| TimeFormat.JsRem | src/lib/time.ts:3-4 | The truncating remainder: equals `%` for non-negative inputs; for negative ones it lies in `(-b, 0]` and differs from the floored remainder by exactly `b` unless both are 0, which pins it down |
| TimeFormat.Decompose | src/lib/time.ts:2-4 | For a non-negative total, hours/minutes/seconds recompose to it, minutes and seconds are below 60, and hours are 0 exactly below an hour |
| TimeFormat.DecomposeUnique | src/lib/time.ts:2-4 | Two clocks with minutes and seconds below 60 that add up to the same total are the same clock, so the decomposition is the only one |
| TimeFormat.FormatTimeShortShape | src/lib/time.ts:1-16 | Below an hour the clock is `MM:SS`: five characters, two-digit fields holding the minutes and the seconds |
| TimeFormat.SplitFormatTime | src/lib/time.ts:6-15 | The clock text splits at ':' back into exactly its padded fields, hours only from one hour on |
| TimeFormat.FormatTimeRoundTrip | src/lib/time.ts:1-16 | Reading the clock text back yields the original number of seconds, for every non-negative total |
| TimeFormat.FormatTimeNegative | src/lib/time.ts:1-16 | Below zero the hours are hidden and the display reads back as nothing, except for a whole number of hours, where it is exactly "00:00" and reads back as 0 |
| TimeFormat.FormatTimeLongShape | src/lib/time.ts:8-10 | From one hour on there are three fields; the hours field is the full decimal hours (padded to two digits, never truncated), minutes and seconds are two-digit fields with their values |
| TimeFormat.FormatTimeVerboseCases | src/lib/time.ts:18-35 | Seconds below a minute as `Ns`, whole minutes below an hour as `Nmin`, otherwise `Nh` or `Nh Mmin` with seconds dropped |
| TimeFormat.VerboseDropsSeconds | src/lib/time.ts:26-34 | From a minute on, the verbose text depends only on the whole minutes |
| TimeFormat.DropSecondsClock | src/lib/time.ts:19-20 | Clearing the seconds of a total of at least a minute keeps its hours and minutes, which are not both zero |
| HistoryPanel.Insert | src/components/HistoryPanel.tsx:15-17 | Inserting into a most-recent-first list keeps it sorted, adds exactly the record and adds its total to the sum |
| HistoryPanel.SortByDateDesc | src/components/HistoryPanel.tsx:15-17 | The sorted list is most recent first, a permutation of the ledger, with the same total |
| HistoryPanel.RoundedAverage | src/components/HistoryPanel.tsx:49-52 | `Math.round(total / n)` is the integer nearest the true average, halves rounded up |
| HistoryPanel.AverageWithinBounds | src/components/HistoryPanel.tsx:45-52 | The rounded average of the day totals lies between the smallest and the largest day total |
| HistoryPanel.Panel | src/components/HistoryPanel.tsx:19-52 | The empty state shows exactly for an empty ledger; otherwise the days most recent first, the all-time total equal to the ledger sum and the rounded average |
| HistoryPanel.SessionLabel | src/components/HistoryPanel.tsx:108-109 | "1 sesión" exactly for one timer, otherwise the count followed by "sesiones" |
| TimerCard.DisplayTime | src/components/TimerCard.tsx:247-250 | The card reads back as the remaining seconds (never below 0) with a target, or the elapsed seconds without one; a negative elapsed count (reachable when the clock goes back) reads back as nothing, or as 0 at a whole number of hours; a completed timer shows "00:00" |
| TimerCard.AlarmEffect | src/components/TimerCard.tsx:220-231 | The alarm plays exactly on completion with the latch down, which raises the latch; leaving completion re-arms the latch and silences the alarm |
| TimerCard.AlarmEffectSettles | src/components/TimerCard.tsx:220-231 | Re-running the effect with the same inputs plays nothing and changes nothing |
| TimerCard.OneAlarmPerCompletion | src/components/TimerCard.tsx:212-231 | Over any sequence of renders the alarm plays exactly as many times as the timer becomes completed |
| TimerCard.StopAlarm | src/components/TimerCard.tsx:234-237 | Stopping the alarm silences it and keeps the latch, so it does not ring again for the same completion |
| TimerCard.StopAlarmAndReset | src/components/TimerCard.tsx:281-285 | Silences the alarm, then requests a reset, in that order |
| TimerCard.ResetRearmsAlarm | src/components/TimerCard.tsx:226-230 | After stop-and-reset the reset timer re-arms the latch, so a later completion rings again |
| TimerCard.TickCompletionShows | src/components/TimerCard.tsx:217 | A timer the tick completes is shown as completed with "00:00" |
| TimerCard.MainButtonOf | src/components/TimerCard.tsx:398-424 | The stop button shows exactly while the alarm sounds; otherwise play/pause is disabled exactly when completed and shows pause exactly when running |
| TimerCard.CardSpace | src/components/TimerCard.tsx:290-297 | Outside Zen mode Space stops and resets while the alarm sounds, otherwise toggles exactly when hovered or time was banked; never resets or closes |
| TimerCard.CardBackspace | src/components/TimerCard.tsx:298-303 | Backspace is bound exactly outside Zen mode with positive elapsed; it stops and resets while the alarm sounds and resets otherwise |
| TimerCard.BackspaceIgnoresHover | src/components/TimerCard.tsx:299 | The card's Backspace binding does not depend on hovering |
| TimerCard.SpaceSilencesAlarm | src/components/TimerCard.tsx:60-64 | In either view Space stops and resets while the alarm sounds and otherwise only toggles; it is unbound exactly on an idle, unhovered card outside Zen mode |
| TimerCard.BackspaceAgrees | src/components/TimerCard.tsx:60-64 | With time banked, Backspace on the card and in the overlay agree; Escape only closes the overlay and differs from Space |
| TimerCard.BackspaceNeedsResetEnabled | src/components/TimerCard.tsx:391 | Backspace is bound only while the reset button is enabled; a negative count enables the button but binds nothing |
| EditDialog.PrefillDuration | src/components/EditTimerDialog.tsx:35-37 | The minutes field starts empty exactly for a timer without a positive target |
| EditDialog.ParsePrefilled | src/components/EditTimerDialog.tsx:51 | Parsing the prefilled field gives no number for the empty field and the whole minutes of the target otherwise |
| EditDialog.Submit | src/components/EditTimerDialog.tsx:41-58 | Without a timer nothing happens; otherwise save under its id, then close; the name is included exactly when not blank (trimmed), the duration exactly when the minutes parse to at least 0 (in seconds) |
| EditDialog.ResaveUntouched | src/components/EditTimerDialog.tsx:32-58 | Opening the dialog on a paused timer and saving it untouched keeps the name; durations without a target or of whole minutes survive, others are cut down to whole minutes |

## Left out

- Storage I/O (`localStorage`, JSON parsing and its failure path): loading and saving are modelled on an optional snapshot value.
- `getToday` and `generateId` (the browser clock and randomness): the date and fresh ids are parameters. `getToday` is the UTC calendar date of the browser clock (`toISOString()` cut at "T"), so in the source the day closes at UTC midnight, not local midnight. The rollover happens whenever the `today` passed in differs, so its timing follows whatever UTC date the caller supplies.
- React scheduling: effects, batched state setters and re-renders. Each transition is one function from state to state, and the rollover is a function on the state. In the source the rollover effect runs only when the loaded flag, the last active date or the timer list changes. So when the page stays open past midnight and the timer list does not change, the first action of the new day triggers it, and a timer started by that action is stopped and zeroed at once. The model expresses that sequence as the rollover applied after the action, for example `Rollover(ToggleTimer(s, id, now), today)`.
- Timing of the tick: the one-second interval, and the separate `Date.now()` read for each timer. One `now` is used per tick.
- The debug `console.log` lines after the total calculation.
- The sound (`useSound`, volume) and the card's floating-point progress bar.
- `formatDate` and the date texts shown in the panel. Date ordering is a parameter (`time`), which stands in for `new Date(date).getTime()`.
- Keyboard event dispatch (`useKeyboardShortcuts`, whether the focus is in an input): the model states which handler a key is bound to.
- Page and layout components, `CreateTimerForm`, `DailySummary` and the navigation: outside the modelled core.
- HistoryPanel.SortByDateDesc: does not state that the order of records with equal dates matches the stable `Array.prototype.sort`. Only sortedness and permutation are proved.
- TimeFormat.FormatTimeRoundTrip and Text.NatToString: numbers are unbounded integers, while the source's are JavaScript doubles. Those are exact only up to 2^53, and `toString` prints them in exponent form from 1e21. So the exact digits and the round trip hold in the program only for hours below 1e21 and totals below 2^53. Such totals are reachable only through absurd typed minute counts (`parseInt` of a long digit string times 60).
- TimeFormat.FormatTimeShortShape: the shape lemmas (this one and FormatTimeLongShape) and FormatTimeRoundTrip cover non-negative totals. For negative totals only what the display reads back as is stated (FormatTimeNegative), not its characters.
- TimeFormat.FormatTimeVerboseCases: the contract covers non-negative totals only. A negative total follows the same arithmetic without a stated result.
- EditDialog.ParsePrefilled: `String(duration / 60)` followed by `parseInt` is modelled as the integer part. The decimal and exponent forms of the text are not modelled.
- EngineLaws.ResetKeepsTotal and EngineLaws.RemoveKeepsTotal: stated for unique ids only. With duplicate ids the source banks only the first match but drops or zeroes every match.

## Findings

| source | as written | input that shows it | evidently intended | confidence | as-written member | corrected member |
|---|---|---|---|---|---|---|
| src/context/timer-context.tsx:95 | The day-change total adds the accumulator to the timers' STORED `elapsed`, so a timer still running loses its open segment from the recorded day | Timer A paused at 120 s, timer B with 30 s banked and running for 10 more s when the date changes: "total today" is 160 s, the record says 150 s | The record holds "total today" at the change, live segments included | not executed | DayRollover.RolloverDropsOpenSegment | DayRollover.RolloverLiveRecordsTotal |

=== FILE: day_rollover.dfy ===
/**
 * Closing a day into the history ledger when the date changes, and the
 * hydration of the provider's state from its persisted snapshot.
 */
module DayRollover {
  import opened Wrappers
  import opened Sums
  import opened TimerTypes
  import opened TimerEngine
  import opened EngineLaws

  /** The banked (stored) seconds of each timer, ignoring any open segment. */
  function StoredList(ts: seq<Timer>): (r: seq<int>)
    ensures |r| == |ts|
    ensures forall i :: 0 <= i < |ts| ==> r[i] == ts[i].elapsed
  {
    seq(|ts|, i requires 0 <= i < |ts| => ts[i].elapsed)
  }

  /** `history.some(r => r.date === date)`. */
  predicate HasRecordFor(h: seq<DailyRecord>, date: string) {
    exists i :: 0 <= i < |h| && h[i].date == date
  }

  /** The timers as recorded in a closed day: marked not running, everything else kept. */
  function Snapshot(ts: seq<Timer>): (r: seq<Timer>)
    ensures |r| == |ts|
    ensures forall i :: 0 <= i < |ts| ==> r[i] == ts[i].(isRunning := false)
  {
    seq(|ts|, i requires 0 <= i < |ts| => ts[i].(isRunning := false))
  }

  /** The history setter of the rollover: append `rec` unless its date is already recorded. */
  function AppendOnce(h: seq<DailyRecord>, rec: DailyRecord): (r: seq<DailyRecord>)
    ensures HasRecordFor(h, rec.date) ==> r == h
    ensures !HasRecordFor(h, rec.date) ==> r == h + [rec]
    ensures HasRecordFor(r, rec.date)
  {
    if HasRecordFor(h, rec.date) then h
    else
      assert (h + [rec])[|h|] == rec;
      h + [rec]
  }

  /**
   * The day change with a given day `total`: the outgoing day is recorded when
   * it has time or timers, every timer is zeroed and stopped, the accumulator
   * is emptied and the new date is taken.
   */
  function CloseDay(s: State, today: string, total: int): (r: State)
    requires s.lastActiveDate != today
    ensures r.lastActiveDate == today && r.accumulated == 0
    ensures |r.timers| == |s.timers|
    ensures forall i :: 0 <= i < |s.timers| ==> r.timers[i] == Zeroed(s.timers[i])
    ensures var rec := DailyRecord(s.lastActiveDate, total, Snapshot(s.timers));
      && ((total > 0 || |s.timers| > 0) ==> r.history == AppendOnce(s.history, rec))
      && (total <= 0 && |s.timers| == 0 ==> r.history == s.history)
  {
    var rec := DailyRecord(s.lastActiveDate, total, Snapshot(s.timers));
    var history := if total > 0 || |s.timers| > 0 then AppendOnce(s.history, rec) else s.history;
    var ts := s.timers;
    State(seq(|ts|, i requires 0 <= i < |ts| => Zeroed(ts[i])), history, today, 0)
  }

  /**
   * The rollover effect as written: when the date changed, the outgoing day's
   * total is the accumulator plus the STORED seconds of the timers, so the open
   * segment of a timer still running is not counted. What closing a day does
   * is stated by `CloseDay`; the laws below relate the two rollovers.
   */
  function Rollover(s: State, today: string): (r: State)
    ensures s.lastActiveDate == today ==> r == s
    ensures s.lastActiveDate != today ==> r == CloseDay(s, today, s.accumulated + Sum(StoredList(s.timers)))
  {
    if s.lastActiveDate == today then s
    else CloseDay(s, today, s.accumulated + Sum(StoredList(s.timers)))
  }

  /**
   * The rollover with the day total taken live at `now`, which counts running
   * timers' open segments. `CloseDay` states what closing a day does.
   */
  function RolloverLive(s: State, today: string, now: int): (r: State)
    ensures s.lastActiveDate == today ==> r == s
    ensures s.lastActiveDate != today ==> r == CloseDay(s, today, TotalToday(s, now))
  {
    if s.lastActiveDate == today then s else CloseDay(s, today, TotalToday(s, now))
  }

  // ------------------------------------------------------------------ laws

  /** Running the guarded history update twice appends at most one record. */
  lemma AppendOnceIdempotent(h: seq<DailyRecord>, rec: DailyRecord)
    ensures AppendOnce(AppendOnce(h, rec), rec) == AppendOnce(h, rec)
  {
  }

  /** The guard keeps one record per date. */
  lemma AppendOnceKeepsUniqueDates(h: seq<DailyRecord>, rec: DailyRecord)
    requires UniqueDates(h)
    ensures UniqueDates(AppendOnce(h, rec))
  {
    if !HasRecordFor(h, rec.date) {
      var r := h + [rec];
      forall i, j | 0 <= i < j < |r| ensures r[i].date != r[j].date {
        if j == |h| {
          assert r[i] == h[i];
        } else {
          assert r[i] == h[i] && r[j] == h[j];
        }
      }
    }
  }

  /** A second rollover on the same day is a no-op. */
  lemma RolloverIdempotent(s: State, today: string)
    ensures Rollover(Rollover(s, today), today) == Rollover(s, today)
  {
  }

  /** After a rollover nothing runs and no time is left on the new day. */
  lemma RolloverEmptiesDay(s: State, today: string, now: int)
    requires s.lastActiveDate != today
    ensures TotalToday(Rollover(s, today), now) == 0
    ensures forall i :: 0 <= i < |Rollover(s, today).timers| ==> !Rollover(s, today).timers[i].isRunning
  {
    var r := Rollover(s, today);
    assert LiveList(r.timers, now) == seq(|s.timers|, _ => 0);
    ZeroSum(|s.timers|);
  }

  lemma {:induction false} ZeroSum(n: nat)
    ensures Sum(seq(n, _ => 0)) == 0
  {
    if n > 0 {
      assert seq(n, _ => 0)[..n - 1] == seq(n - 1, _ => 0);
      ZeroSum(n - 1);
    }
  }

  /** The rollover keeps the engine's invariant, one record per date included. */
  lemma RolloverKeepsValid(s: State, today: string)
    requires Valid(s)
    ensures Valid(Rollover(s, today))
  {
    if s.lastActiveDate != today {
      var total := s.accumulated + Sum(StoredList(s.timers));
      AppendOnceKeepsUniqueDates(s.history, DailyRecord(s.lastActiveDate, total, Snapshot(s.timers)));
    }
  }

  /**
   * The outgoing day's record equals "total today" just before the rollover
   * whenever no timer has an open segment; with the day's time present the
   * record is appended exactly once.
   */
  lemma RolloverRecordsPausedTotal(s: State, today: string, now: int)
    requires s.lastActiveDate != today
    requires !HasRecordFor(s.history, s.lastActiveDate)
    requires forall i :: 0 <= i < |s.timers| ==> !(s.timers[i].isRunning && HasStamp(s.timers[i]))
    requires TotalToday(s, now) > 0 || |s.timers| > 0
    ensures var r := Rollover(s, today);
      && |r.history| == |s.history| + 1
      && r.history[|s.history|].date == s.lastActiveDate
      && r.history[|s.history|].totalSeconds == TotalToday(s, now)
  {
    assert StoredList(s.timers) == LiveList(s.timers, now);
  }

  /** The corrected rollover records exactly "total today" at the instant of the change. */
  lemma RolloverLiveRecordsTotal(s: State, today: string, now: int)
    requires s.lastActiveDate != today
    requires !HasRecordFor(s.history, s.lastActiveDate)
    requires TotalToday(s, now) > 0 || |s.timers| > 0
    ensures var r := RolloverLive(s, today, now);
      && |r.history| == |s.history| + 1
      && r.history[|s.history|] == DailyRecord(s.lastActiveDate, TotalToday(s, now), Snapshot(s.timers))
      && Sum(HistoryTotals(r.history)) == Sum(HistoryTotals(s.history)) + TotalToday(s, now)
  {
    var r := RolloverLive(s, today, now);
    var rec := DailyRecord(s.lastActiveDate, TotalToday(s, now), Snapshot(s.timers));
    assert HistoryTotals(r.history) == HistoryTotals(s.history) + [rec.totalSeconds];
    SumAppend(HistoryTotals(s.history), [rec.totalSeconds]);
    SumSingleton(rec.totalSeconds);
  }

  /**
   * Two timers on day D: "A" paused at 120 s, "B" banked 30 s and running for
   * 10 more. "Total today" is 160 s, but the rollover as written records 150 s.
   */
  lemma RolloverDropsOpenSegment()
    ensures var a := Timer("a", "A", 0, 120, false, "", None);
      var b := Timer("b", "B", 0, 30, true, "", Some(1000000));
      var s := State([a, b], [], "D", 0);
      && TotalToday(s, 1010000) == 160
      && Rollover(s, "D+1").history == [DailyRecord("D", 150, Snapshot([a, b]))]
      && RolloverLive(s, "D+1", 1010000).history == [DailyRecord("D", 160, Snapshot([a, b]))]
  {
    var a := Timer("a", "A", 0, 120, false, "", None);
    var b := Timer("b", "B", 0, 30, true, "", Some(1000000));
    var s := State([a, b], [], "D", 0);
    assert LiveList(s.timers, 1010000) == [120, 40];
    assert Sum([120, 40]) == 160 by {
      assert [120, 40][..1] == [120];
      SumSingleton(120);
    }
    assert StoredList(s.timers) == [120, 30];
    assert Sum([120, 30]) == 150 by {
      assert [120, 30][..1] == [120];
      SumSingleton(120);
    }
    assert !HasRecordFor([], "D");
  }

  // ------------------------------------------------------------ persistence

  /**
   * What is written to storage: the declared `AppState` fields plus the
   * accumulator, which the declared type does not list and which an older
   * snapshot may lack.
   */
  datatype Stored = Stored(state: AppState, accumulatedTodaySeconds: Option<int>)

  /** The state saved by the persistence effect. */
  function Persist(s: State): (r: Stored)
    ensures r.accumulatedTodaySeconds == Some(s.accumulated)
    ensures r.state.timers == s.timers && r.state.history == s.history
    ensures r.state.lastActiveDate == s.lastActiveDate
  {
    Stored(AppState(s.timers, s.history, s.lastActiveDate), Some(s.accumulated))
  }

  /**
   * The load effect: nothing stored gives an empty state dated `today`; a
   * stored snapshot is taken as is, with a missing accumulator read as 0.
   */
  function Hydrate(stored: Option<Stored>, today: string): (r: State)
    ensures stored.None? ==> r == State([], [], today, 0)
    ensures stored.Some? ==>
      && r.timers == stored.value.state.timers && r.history == stored.value.state.history
      && r.lastActiveDate == stored.value.state.lastActiveDate
      && r.accumulated == (if stored.value.accumulatedTodaySeconds.Some? then stored.value.accumulatedTodaySeconds.value else 0)
  {
    match stored
    case None => State([], [], today, 0)
    case Some(x) =>
      State(x.state.timers, x.state.history, x.state.lastActiveDate, ValueOr(x.accumulatedTodaySeconds, 0))
  }

  /** Saving and loading gives the same state back, accumulator included. */
  lemma HydratePersist(s: State, today: string)
    ensures Hydrate(Some(Persist(s)), today) == s
  {
  }
}

=== FILE: edit_dialog.dfy ===
/**
 * The edit dialog: how its fields are prefilled from a timer and which
 * fields go into the update object on submit. `parseInt` of the minutes
 * field is an input (`None` for NaN).
 */
module EditDialog {
  import opened Wrappers
  import opened Text
  import opened TimerTypes
  import opened TimerEngine
  import opened EngineLaws

  /** The minutes field when the dialog opens: empty, or the text of `seconds / 60`. */
  datatype DurationField = Blank | MinutesOf(seconds: int)

  /** The duration prefill: empty for a timer without a target. */
  function PrefillDuration(duration: int): (f: DurationField)
    ensures f.Blank? <==> duration <= 0
    ensures f.MinutesOf? ==> f.seconds == duration
  {
    if duration > 0 then MinutesOf(duration) else Blank
  }

  /**
   * `parseInt` of a prefilled field: NaN for the empty text, and for the
   * decimal text of a positive `seconds / 60` its integer part.
   */
  function ParsePrefilled(f: DurationField): (r: Option<int>)
    ensures f.Blank? ==> r.None?
    ensures f.MinutesOf? && f.seconds > 0 ==> r.Some? && r.value * 60 <= f.seconds < r.value * 60 + 60
  {
    match f
    case Blank => None
    case MinutesOf(s) => Some(s / 60)
  }

  /** What submitting does, in order: hand the updates to the engine, then close. */
  datatype DialogEffect = Save(id: string, updates: Updates) | CloseDialog

  /**
   * `handleSubmit`: nothing without a timer; otherwise the trimmed name when
   * it is not blank, the minutes in seconds when they parse to a number of at
   * least 0, saved under the timer's id, then the dialog closes.
   */
  function Submit(timer: Option<Timer>, name: string, minutes: Option<int>): (r: seq<DialogEffect>)
    ensures timer.None? ==> r == []
    ensures timer.Some? ==> |r| == 2 && r[0].Save? && r[0].id == timer.value.id && r[1] == CloseDialog
    ensures timer.Some? ==>
      var u := r[0].updates;
      && (u.name.Some? <==> !AllWhitespace(name))
      && (u.name.Some? ==> u.name.value == Trim(name) && u.name.value != [])
      && (u.duration.Some? <==> minutes.Some? && minutes.value >= 0)
      && (u.duration.Some? ==> u.duration.value == minutes.value * 60)
  {
    match timer
    case None => []
    case Some(t) =>
      var trimmed := Trim(name);
      var newName := if trimmed != [] then Some(trimmed) else None;
      var newDuration := if minutes.Some? && minutes.value >= 0 then Some(minutes.value * 60) else None;
      [Save(t.id, Updates(newName, newDuration)), CloseDialog]
  }

  /**
   * Opening the dialog on a paused, well-named timer and saving it untouched
   * keeps the name; the duration survives when it is whole minutes or no
   * target, and is otherwise cut down to whole minutes.
   */
  lemma ResaveUntouched(t: Timer)
    requires WellNamed(t) && !t.isRunning
    ensures var effects := Submit(Some(t), t.name, ParsePrefilled(PrefillDuration(t.duration)));
      var e := EditOne(t, effects[0].updates);
      && e.name == t.name
      && e.duration == (if t.duration > 0 then t.duration / 60 * 60 else t.duration)
      && (t.duration <= 0 || t.duration % 60 == 0 ==> e == t)
  {
    assert !AllWhitespace(t.name) by {
      assert !IsWhitespace(t.name[0]);
    }
    TrimIdempotent(t.name);
  }
}

=== FILE: engine_laws.dfy ===
/**
 * Laws of the accounting engine: how each operation moves "total today", the
 * tick's completion behaviour, pause/resume accounting, and the well-formedness
 * every operation keeps.
 */
module EngineLaws {
  import opened Wrappers
  import opened Sums
  import opened Text
  import opened TimerTypes
  import opened TimerEngine

  // ----------------------------------------------------------- list facts

  lemma LiveListUpdate(ts: seq<Timer>, r: seq<Timer>, k: nat, now: int)
    requires |r| == |ts| && k < |ts|
    requires forall i :: 0 <= i < |ts| && i != k ==> r[i] == ts[i]
    ensures LiveList(r, now) == LiveList(ts, now)[k := LiveElapsed(r[k], now)]
  {
  }

  lemma LiveListSame(ts: seq<Timer>, r: seq<Timer>, now: int)
    requires |r| == |ts|
    requires forall i :: 0 <= i < |ts| ==> LiveElapsed(r[i], now) == LiveElapsed(ts[i], now)
    ensures LiveList(r, now) == LiveList(ts, now)
  {
  }

  lemma LiveListSplice(ts: seq<Timer>, k: nat, now: int)
    requires k < |ts|
    ensures LiveList(ts[..k] + ts[k + 1..], now) == LiveList(ts, now)[..k] + LiveList(ts, now)[k + 1..]
  {
  }

  /** With unique ids, only the matching timer can differ after a per-id map. */
  lemma OnlyTargetDiffers(ts: seq<Timer>, r: seq<Timer>, id: string, k: nat)
    requires UniqueIds(ts) && k < |ts| && ts[k].id == id && |r| == |ts|
    requires forall i :: 0 <= i < |ts| && ts[i].id != id ==> r[i] == ts[i]
    ensures forall i :: 0 <= i < |ts| && i != k ==> r[i] == ts[i]
  {
    forall i | 0 <= i < |ts| && i != k ensures r[i] == ts[i] {
      if i < k { assert ts[i].id != ts[k].id; } else { assert ts[k].id != ts[i].id; }
    }
  }

  // ------------------------------------------------------- total today

  /** Toggling banks or opens a segment at `now` without changing the day's total at `now`. */
  lemma ToggleKeepsTotal(s: State, id: string, now: int)
    ensures TotalToday(ToggleTimer(s, id, now), now) == TotalToday(s, now)
  {
    LiveListSame(s.timers, ToggleTimer(s, id, now).timers, now);
  }

  /** Stopping every timer at `now` does not change the day's total at `now`. */
  lemma StopAllKeepsTotal(s: State, now: int)
    ensures TotalToday(StopAllTimers(s, now), now) == TotalToday(s, now)
  {
    var r := StopAllTimers(s, now);
    assert forall i :: 0 <= i < |s.timers| ==> LiveElapsed(r.timers[i], now) == r.timers[i].elapsed;
    LiveListSame(s.timers, r.timers, now);
  }

  /** Editing never changes the day's total, at any instant. */
  lemma EditKeepsTotal(s: State, id: string, u: Updates, now: int)
    ensures TotalToday(EditTimer(s, id, u), now) == TotalToday(s, now)
  {
    LiveListSame(s.timers, EditTimer(s, id, u).timers, now);
  }

  /** A new timer contributes nothing to the day's total. */
  lemma AddKeepsTotal(s: State, id: string, name: string, minutes: int, createdAt: string, now: int)
    ensures TotalToday(AddTimer(s, id, name, minutes, createdAt), now) == TotalToday(s, now)
  {
    var r := AddTimer(s, id, name, minutes, createdAt);
    assert r.timers == s.timers + [r.timers[|s.timers|]];
    assert LiveList(r.timers, now) == LiveList(s.timers, now) + [0];
    SumAppend(LiveList(s.timers, now), [0]);
    SumSingleton(0);
  }

  /**
   * Resetting moves the target's live seconds into the accumulator: the day's
   * total is unchanged when those seconds are not negative, and grows by their
   * magnitude when they are (a negative count is zeroed but not banked).
   */
  lemma ResetKeepsTotal(s: State, id: string, now: int)
    requires UniqueIds(s.timers)
    ensures FindIndex(s.timers, id).Some? ==>
      var live := LiveElapsed(s.timers[FindIndex(s.timers, id).value], now);
      TotalToday(ResetTimer(s, id, now), now) == TotalToday(s, now) - (if live < 0 then live else 0)
    ensures FindIndex(s.timers, id).None? ==> TotalToday(ResetTimer(s, id, now), now) == TotalToday(s, now)
  {
    var r := ResetTimer(s, id, now);
    var k := FindIndex(s.timers, id);
    if k.Some? {
      OnlyTargetDiffers(s.timers, r.timers, id, k.value);
      LiveListUpdate(s.timers, r.timers, k.value, now);
      SumUpdate(LiveList(s.timers, now), k.value, 0);
    }
  }

  /** Removing moves the target's live seconds into the accumulator, like a reset. */
  lemma RemoveKeepsTotal(s: State, id: string, now: int)
    requires UniqueIds(s.timers)
    ensures FindIndex(s.timers, id).Some? ==>
      var live := LiveElapsed(s.timers[FindIndex(s.timers, id).value], now);
      TotalToday(RemoveTimer(s, id, now), now) == TotalToday(s, now) - (if live < 0 then live else 0)
    ensures FindIndex(s.timers, id).None? ==> TotalToday(RemoveTimer(s, id, now), now) == TotalToday(s, now)
  {
    var k := FindIndex(s.timers, id);
    if k.Some? {
      WithoutUniqueId(s.timers, k.value);
      LiveListSplice(s.timers, k.value, now);
      SumRemove(LiveList(s.timers, now), k.value);
    }
  }

  /** With unique ids the removed timer is gone and the others stay, in order. */
  lemma RemoveKeepsOthers(s: State, id: string, now: int)
    requires UniqueIds(s.timers)
    ensures var k := FindIndex(s.timers, id);
      k.Some? ==> RemoveTimer(s, id, now).timers == s.timers[..k.value] + s.timers[k.value + 1..]
  {
    var k := FindIndex(s.timers, id);
    if k.Some? {
      WithoutUniqueId(s.timers, k.value);
    }
  }

  // --------------------------------------------------------------- ticks

  /** The tick can only cut overshoot: the day's total never grows. */
  lemma TickNeverRaisesTotal(s: State, now: int)
    ensures TotalToday(Tick(s, now), now) <= TotalToday(s, now)
  {
    SumMonotone(LiveList(Tick(s, now).timers, now), LiveList(s.timers, now));
  }

  /** After a tick no running timer is at or past a positive target. */
  lemma TickLeavesNothingOverdue(s: State, now: int)
    ensures forall i :: 0 <= i < |Tick(s, now).timers| ==>
      var t := Tick(s, now).timers[i];
      t.isRunning && HasStamp(t) && t.duration > 0 ==> LiveElapsed(t, now) < t.duration
  {
  }

  /** A second tick at the same instant changes nothing. */
  lemma TickIdempotent(s: State, now: int)
    ensures Tick(Tick(s, now), now) == Tick(s, now)
  {
    var r := Tick(s, now);
    assert Tick(r, now).timers == r.timers;
  }

  // ------------------------------------------------------ pause / resume

  /**
   * Pausing at `now1` and resuming at `now2` never counts more than leaving the
   * timer running; what it loses is the pause itself plus under two seconds of
   * rounding (one per floored segment).
   */
  lemma PauseResumeBounded(t: Timer, now1: int, now2: int, now3: int)
    requires t.isRunning && HasStamp(t)
    requires t.lastStartedAt.value <= now1 <= now2 <= now3 && now2 != 0
    ensures var t' := PauseOrStart(PauseOrStart(t, now1), now2);
      && t'.isRunning && t'.lastStartedAt == Some(now2)
      && t.elapsed <= t'.elapsed
      && LiveElapsed(t', now3) <= LiveElapsed(t, now3)
      && (LiveElapsed(t, now3) - LiveElapsed(t', now3)) * 1000 < (now2 - now1) + 2000
  {
    var start := t.lastStartedAt.value;
    var a, b, c := SegmentSeconds(start, now1), SegmentSeconds(now2, now3), SegmentSeconds(start, now3);
    assert a * 1000 + b * 1000 <= now3 - start - (now2 - now1);
    assert a + b <= c;
    assert (c - a - b) * 1000 < (now2 - now1) + 2000;
  }

  /** With the clock never behind a start stamp, banked seconds stay non-negative. */
  lemma ToggleKeepsElapsedNonNegative(t: Timer, now: int)
    requires t.elapsed >= 0
    requires t.lastStartedAt.Some? ==> t.lastStartedAt.value <= now
    ensures PauseOrStart(t, now).elapsed >= 0
  {
  }

  /** The pause segment is not clamped: a clock that went back lowers the banked seconds. */
  lemma BackwardClockLowersElapsed()
    ensures var t := Timer("a", "A", 0, 5, true, "", Some(10000));
      PauseOrStart(t, 2000).elapsed == -3
  {
  }

  /** Toggling does not look at completion: a completed timer starts again. */
  lemma ToggleRestartsCompleted(t: Timer, now: int)
    requires 0 < t.duration <= t.elapsed && !t.isRunning
    ensures PauseOrStart(t, now).isRunning
    ensures now != 0 ==> TickOne(PauseOrStart(t, now), now) == PauseOrStart(t, now).(elapsed := t.duration, isRunning := false, lastStartedAt := None)
  {
  }

  /**
   * An unbounded timer "Focus" started at `t0` shows 5 s live after five
   * seconds, and pausing then banks exactly those 5 s.
   */
  lemma ScenarioFocus(t0: int)
    requires t0 > 0
    ensures var s0 := AddTimer(State([], [], "D", 0), "f", "Focus", 0, "c");
      var s1 := ToggleTimer(s0, "f", t0);
      var s2 := ToggleTimer(s1, "f", t0 + 5000);
      && LiveElapsed(s1.timers[0], t0 + 5000) == 5 && s1.timers[0].isRunning
      && s2.timers[0].elapsed == 5 && !s2.timers[0].isRunning
  {
  }

  /**
   * A one-minute "Pomodoro" started at `t0` is completed by the first tick at
   * or after sixty seconds: 60 s banked and paused.
   */
  lemma ScenarioPomodoro(t0: int, t1: int)
    requires t0 > 0 && t1 >= t0 + 60000
    ensures var s0 := AddTimer(State([], [], "D", 0), "p", "Pomodoro", 1, "c");
      var s1 := Tick(ToggleTimer(s0, "p", t0), t1);
      s1.timers[0].elapsed == 60 && !s1.timers[0].isRunning && s1.timers[0].lastStartedAt == None
  {
  }

  // --------------------------------------------------------- well-formedness

  /** A running timer has a stamp and a paused one has none. */
  predicate StampConsistent(t: Timer) {
    t.isRunning <==> t.lastStartedAt.Some?
  }

  /** Names are never blank and carry no surrounding whitespace. */
  predicate WellNamed(t: Timer) {
    t.name != [] && Trimmed(t.name)
  }

  predicate WellFormedTimer(t: Timer) {
    StampConsistent(t) && WellNamed(t)
  }

  predicate UniqueDates(h: seq<DailyRecord>) {
    forall i, j :: 0 <= i < j < |h| ==> h[i].date != h[j].date
  }

  /** The invariant the operations keep: unique ids, consistent stamps, clean names, one record per date. */
  predicate Valid(s: State) {
    && UniqueIds(s.timers)
    && (forall i :: 0 <= i < |s.timers| ==> WellFormedTimer(s.timers[i]))
    && UniqueDates(s.history)
  }

  lemma AddKeepsValid(s: State, id: string, name: string, minutes: int, createdAt: string)
    requires Valid(s)
    requires forall i :: 0 <= i < |s.timers| ==> s.timers[i].id != id
    ensures Valid(AddTimer(s, id, name, minutes, createdAt))
  {
    var r := AddTimer(s, id, name, minutes, createdAt);
    forall i | 0 <= i < |r.timers| ensures WellFormedTimer(r.timers[i]) {
      if i < |s.timers| { assert r.timers[i] == r.timers[..|s.timers|][i]; }
    }
    forall i, j | 0 <= i < j < |r.timers| ensures r.timers[i].id != r.timers[j].id {
      assert r.timers[i] == r.timers[..|s.timers|][i];
      if j < |s.timers| { assert r.timers[j] == r.timers[..|s.timers|][j]; }
    }
  }

  lemma RemoveKeepsValid(s: State, id: string, now: int)
    requires Valid(s)
    ensures Valid(RemoveTimer(s, id, now))
  {
    var k := FindIndex(s.timers, id);
    if k.Some? {
      WithoutUniqueId(s.timers, k.value);
      SpliceKeepsWellFormed(s.timers, k.value);
    }
  }

  /** Cutting one timer out of a list keeps ids unique and every timer well-formed. */
  lemma SpliceKeepsWellFormed(ts: seq<Timer>, k: nat)
    requires k < |ts| && UniqueIds(ts)
    requires forall i :: 0 <= i < |ts| ==> WellFormedTimer(ts[i])
    ensures var r := ts[..k] + ts[k + 1..];
      UniqueIds(r) && forall i :: 0 <= i < |r| ==> WellFormedTimer(r[i])
  {
    var r := ts[..k] + ts[k + 1..];
    forall i | 0 <= i < |r| ensures WellFormedTimer(r[i]) {
      if i < k { assert r[i] == ts[i]; } else { assert r[i] == ts[i + 1]; }
    }
    forall i, j | 0 <= i < j < |r| ensures r[i].id != r[j].id {
      var a := if i < k then i else i + 1;
      var b := if j < k then j else j + 1;
      assert r[i] == ts[a] && r[j] == ts[b];
    }
  }

  lemma ToggleKeepsValid(s: State, id: string, now: int)
    requires Valid(s)
    ensures Valid(ToggleTimer(s, id, now))
  {
  }

  lemma TickKeepsValid(s: State, now: int)
    requires Valid(s)
    ensures Valid(Tick(s, now))
  {
  }

  lemma ResetKeepsValid(s: State, id: string, now: int)
    requires Valid(s)
    ensures Valid(ResetTimer(s, id, now))
  {
  }

  lemma StopAllKeepsValid(s: State, now: int)
    requires Valid(s)
    ensures Valid(StopAllTimers(s, now))
  {
  }

  lemma EditKeepsValid(s: State, id: string, u: Updates)
    requires Valid(s)
    ensures Valid(EditTimer(s, id, u))
  {
  }
}

=== FILE: history_panel.dfy ===
/**
 * The statistics of the history panel: the ledger ordered most recent first,
 * the all-time total, the rounded daily average and the per-day session label.
 * `time` stands for `new Date(date).getTime()`, the sort key of the panel.
 */
module HistoryPanel {
  import opened Sums
  import opened Text
  import opened TimerTypes

  /** Most recent first: no record is dated after one shown before it. */
  ghost predicate SortedDesc(h: seq<DailyRecord>, time: string -> int) {
    forall i, j :: 0 <= i < j < |h| ==> time(h[i].date) >= time(h[j].date)
  }

  lemma TotalsCons(rec: DailyRecord, h: seq<DailyRecord>)
    ensures Sum(HistoryTotals([rec] + h)) == rec.totalSeconds + Sum(HistoryTotals(h))
  {
    assert HistoryTotals([rec] + h) == [rec.totalSeconds] + HistoryTotals(h);
    SumAppend([rec.totalSeconds], HistoryTotals(h));
    SumSingleton(rec.totalSeconds);
  }

  /** Places `rec` ahead of the first record it is not older than. */
  function Insert(rec: DailyRecord, h: seq<DailyRecord>, time: string -> int): (r: seq<DailyRecord>)
    requires SortedDesc(h, time)
    ensures SortedDesc(r, time)
    ensures multiset(r) == multiset(h) + multiset{rec}
    ensures Sum(HistoryTotals(r)) == Sum(HistoryTotals(h)) + rec.totalSeconds
    decreases |h|
  {
    if |h| == 0 then
      TotalsCons(rec, []);
      [rec]
    else if time(rec.date) >= time(h[0].date) then
      TotalsCons(rec, h);
      [rec] + h
    else
      SortedTail(h, time);
      var rest := Insert(rec, h[1..], time);
      InsertBelowHead(rec, h, rest, time);
      [h[0]] + rest
  }

  lemma SortedTail(h: seq<DailyRecord>, time: string -> int)
    requires |h| > 0 && SortedDesc(h, time)
    ensures SortedDesc(h[1..], time)
  {
    forall i, j | 0 <= i < j < |h| - 1 ensures time(h[1..][i].date) >= time(h[1..][j].date) {
      assert h[1..][i] == h[i + 1] && h[1..][j] == h[j + 1];
    }
  }

  /** The recursive case of `Insert`: the head stays in front of the tail's insertion. */
  lemma InsertBelowHead(rec: DailyRecord, h: seq<DailyRecord>, rest: seq<DailyRecord>, time: string -> int)
    requires |h| > 0 && SortedDesc(h, time) && time(rec.date) < time(h[0].date)
    requires SortedDesc(rest, time) && multiset(rest) == multiset(h[1..]) + multiset{rec}
    requires Sum(HistoryTotals(rest)) == Sum(HistoryTotals(h[1..])) + rec.totalSeconds
    ensures SortedDesc([h[0]] + rest, time)
    ensures multiset([h[0]] + rest) == multiset(h) + multiset{rec}
    ensures Sum(HistoryTotals([h[0]] + rest)) == Sum(HistoryTotals(h)) + rec.totalSeconds
  {
    assert h == [h[0]] + h[1..];
    BelowHead(rec, h, rest, time);
    ConsSorted(h[0], rest, time);
    TotalsCons(h[0], rest);
    TotalsCons(h[0], h[1..]);
  }

  /** Whatever the insertion into the tail yields is no newer than the head. */
  lemma BelowHead(rec: DailyRecord, h: seq<DailyRecord>, rest: seq<DailyRecord>, time: string -> int)
    requires |h| > 0 && SortedDesc(h, time)
    requires time(rec.date) < time(h[0].date)
    requires multiset(rest) == multiset(h[1..]) + multiset{rec}
    ensures forall k :: 0 <= k < |rest| ==> time(rest[k].date) <= time(h[0].date)
  {
    forall k | 0 <= k < |rest| ensures time(rest[k].date) <= time(h[0].date) {
      assert rest[k] in multiset(rest);
      if rest[k] != rec {
        assert rest[k] in multiset(h[1..]);
        var j :| 0 <= j < |h[1..]| && h[1..][j] == rest[k];
        assert h[j + 1] == rest[k];
      }
    }
  }

  lemma ConsSorted(x: DailyRecord, rest: seq<DailyRecord>, time: string -> int)
    requires SortedDesc(rest, time)
    requires forall k :: 0 <= k < |rest| ==> time(rest[k].date) <= time(x.date)
    ensures SortedDesc([x] + rest, time)
  {
    var r := [x] + rest;
    forall i, j | 0 <= i < j < |r| ensures time(r[i].date) >= time(r[j].date) {
      assert r[j] == rest[j - 1];
      if i > 0 {
        assert r[i] == rest[i - 1];
      }
    }
  }

  /** `[...history].sort(...)` by date, most recent first. */
  function SortByDateDesc(h: seq<DailyRecord>, time: string -> int): (r: seq<DailyRecord>)
    ensures SortedDesc(r, time)
    ensures multiset(r) == multiset(h) && |r| == |h|
    ensures Sum(HistoryTotals(r)) == Sum(HistoryTotals(h))
    decreases |h|
  {
    if |h| == 0 then []
    else
      assert h == [h[0]] + h[1..];
      TotalsCons(h[0], h[1..]);
      Insert(h[0], SortByDateDesc(h[1..], time), time)
  }

  /** `Math.round(total / n)`: halves round up, as JavaScript does. */
  function RoundedAverage(total: int, n: int): (r: int)
    requires n > 0
    ensures 2 * n * r - n <= 2 * total < 2 * n * r + n
  {
    (2 * total + n) / (2 * n)
  }

  lemma MulMono(n: int, x: int, y: int)
    requires n >= 0
    ensures x <= y ==> n * x <= n * y
  {
  }

  /** The average lies between the smallest and the largest daily total. */
  lemma AverageWithinBounds(h: seq<DailyRecord>, lo: int, hi: int)
    requires |h| > 0
    requires forall i :: 0 <= i < |h| ==> lo <= h[i].totalSeconds <= hi
    ensures lo <= RoundedAverage(Sum(HistoryTotals(h)), |h|) <= hi
  {
    SumBounds(HistoryTotals(h), lo, hi);
    RoundedBetween(Sum(HistoryTotals(h)), |h|, lo, hi);
  }

  /** A total of `n` values in `[lo, hi]` has its rounded average in `[lo, hi]`. */
  lemma RoundedBetween(t: int, n: int, lo: int, hi: int)
    requires n > 0 && n * lo <= t <= n * hi
    ensures lo <= RoundedAverage(t, n) <= hi
  {
    var a := RoundedAverage(t, n);
    assert 2 * n * (a + 1) == 2 * n * a + 2 * n;
    assert 2 * n * (hi + 1) == 2 * (n * hi) + 2 * n;
    assert 2 * n * lo == 2 * (n * lo);
    MulMono(2 * n, a + 1, lo);
    MulMono(2 * n, hi + 1, a);
  }

  /** What the panel shows: the empty state, or the sorted days with their statistics. */
  datatype PanelView =
    | EmptyState
    | Stats(days: seq<DailyRecord>, totalAllTime: int, averagePerDay: int)

  /**
   * The panel for a history: empty history gives the empty state and no
   * statistics; otherwise the days most recent first, the sum of all totals
   * and their average rounded to the nearest second.
   */
  function Panel(h: seq<DailyRecord>, time: string -> int): (p: PanelView)
    ensures p.EmptyState? <==> |h| == 0
    ensures p.Stats? ==>
      && SortedDesc(p.days, time) && multiset(p.days) == multiset(h)
      && p.totalAllTime == Sum(HistoryTotals(h))
      && 2 * |h| * p.averagePerDay - |h| <= 2 * p.totalAllTime < 2 * |h| * p.averagePerDay + |h|
  {
    var sorted := SortByDateDesc(h, time);
    if |sorted| == 0 then EmptyState
    else
      var total := Sum(HistoryTotals(sorted));
      Stats(sorted, total, RoundedAverage(total, |sorted|))
  }

  /** The session count of a day: "1 sesión", otherwise "<n> sesiones". */
  function SessionLabel(rec: DailyRecord): (r: string)
    ensures |rec.timers| == 1 <==> r == "1 sesión"
    ensures |rec.timers| != 1 ==> r == NatToString(|rec.timers|) + " sesiones"
  {
    var n := |rec.timers|;
    var shown := IntToString(n) + " " + (if n != 1 then "sesiones" else "sesión");
    assert n != 1 ==> shown[|shown| - 1] == 's';
    shown
  }
}

=== FILE: sums.dfy ===
/** Sums of integer sequences, the `reduce((acc, x) => acc + x, 0)` of the source. */
module Sums {

  function Sum(xs: seq<int>): int
    decreases |xs|
  {
    if |xs| == 0 then 0 else Sum(xs[..|xs| - 1]) + xs[|xs| - 1]
  }

  lemma {:induction false} SumAppend(xs: seq<int>, ys: seq<int>)
    ensures Sum(xs + ys) == Sum(xs) + Sum(ys)
    decreases |ys|
  {
    if |ys| == 0 {
      assert xs + ys == xs;
    } else {
      var ys' := ys[..|ys| - 1];
      assert (xs + ys)[..|xs + ys| - 1] == xs + ys';
      SumAppend(xs, ys');
    }
  }

  lemma SumSingleton(x: int)
    ensures Sum([x]) == x
  {
    assert [x][..0] == [];
  }

  /** Replacing one element changes the sum by exactly the difference. */
  lemma {:induction false} SumUpdate(xs: seq<int>, k: int, v: int)
    requires 0 <= k < |xs|
    ensures Sum(xs[k := v]) == Sum(xs) - xs[k] + v
  {
    assert xs == xs[..k] + [xs[k]] + xs[k + 1..];
    assert xs[k := v] == xs[..k] + [v] + xs[k + 1..];
    SumAppend(xs[..k] + [xs[k]], xs[k + 1..]);
    SumAppend(xs[..k], [xs[k]]);
    SumAppend(xs[..k] + [v], xs[k + 1..]);
    SumAppend(xs[..k], [v]);
    SumSingleton(xs[k]);
    SumSingleton(v);
  }

  /** Removing one element lowers the sum by exactly that element. */
  lemma {:induction false} SumRemove(xs: seq<int>, k: int)
    requires 0 <= k < |xs|
    ensures Sum(xs[..k] + xs[k + 1..]) == Sum(xs) - xs[k]
  {
    assert xs == xs[..k] + [xs[k]] + xs[k + 1..];
    SumAppend(xs[..k] + [xs[k]], xs[k + 1..]);
    SumAppend(xs[..k], [xs[k]]);
    SumAppend(xs[..k], xs[k + 1..]);
    SumSingleton(xs[k]);
  }

  /** A sum of `n` values each within `[lo, hi]` lies within `[n * lo, n * hi]`. */
  lemma {:induction false} SumBounds(xs: seq<int>, lo: int, hi: int)
    requires forall i :: 0 <= i < |xs| ==> lo <= xs[i] <= hi
    ensures |xs| * lo <= Sum(xs) <= |xs| * hi
    decreases |xs|
  {
    if |xs| > 0 {
      var xs' := xs[..|xs| - 1];
      assert forall i :: 0 <= i < |xs'| ==> xs'[i] == xs[i];
      SumBounds(xs', lo, hi);
      assert |xs| * lo == |xs'| * lo + lo;
      assert |xs| * hi == |xs'| * hi + hi;
    }
  }

  /** Pointwise-equal sequences have equal sums; pointwise-smaller ones smaller sums. */
  lemma {:induction false} SumMonotone(xs: seq<int>, ys: seq<int>)
    requires |xs| == |ys|
    requires forall i :: 0 <= i < |xs| ==> xs[i] <= ys[i]
    ensures Sum(xs) <= Sum(ys)
    decreases |xs|
  {
    if |xs| > 0 {
      var n := |xs| - 1;
      assert forall i :: 0 <= i < n ==> xs[..n][i] == xs[i] && ys[..n][i] == ys[i];
      SumMonotone(xs[..n], ys[..n]);
    }
  }
}

=== FILE: text.dfy ===
/**
 * String helpers: JavaScript's `String.prototype.trim`, integer `toString`,
 * `padStart(2, "0")` and `join(":")` as the source uses them, and a
 * colon splitter with which the model reads a clock display back.
 */
module Text {

  /** The characters JavaScript's `trim` removes: WhiteSpace and LineTerminator of ECMA-262. */
  predicate IsWhitespace(c: char) {
    || ('\U{9}' <= c <= '\U{D}')
    || c == ' ' || c == '\U{A0}' || c == '\U{1680}'
    || ('\U{2000}' <= c <= '\U{200A}')
    || c == '\U{2028}' || c == '\U{2029}' || c == '\U{202F}' || c == '\U{205F}'
    || c == '\U{3000}' || c == '\U{FEFF}'
  }

  predicate AllWhitespace(s: string) {
    forall i :: 0 <= i < |s| ==> IsWhitespace(s[i])
  }

  /** Neither end of `s` is whitespace. */
  predicate Trimmed(s: string) {
    |s| == 0 || (!IsWhitespace(s[0]) && !IsWhitespace(s[|s| - 1]))
  }

  /** `s` is `r` with only whitespace cut from its front (`lead` characters) and back. */
  predicate WhitespaceAround(s: string, lead: int, r: string) {
    && 0 <= lead && lead + |r| <= |s|
    && r == s[lead..lead + |r|]
    && AllWhitespace(s[..lead])
    && AllWhitespace(s[lead + |r|..])
  }

  function TrimStart(s: string): (r: string)
    ensures |r| <= |s| && r == s[|s| - |r|..]
    ensures forall i :: 0 <= i < |s| - |r| ==> IsWhitespace(s[i])
    ensures |r| > 0 ==> !IsWhitespace(r[0])
    decreases |s|
  {
    if |s| > 0 && IsWhitespace(s[0]) then TrimStart(s[1..]) else s
  }

  function TrimEnd(s: string): (r: string)
    ensures |r| <= |s| && r == s[..|r|]
    ensures forall i :: |r| <= i < |s| ==> IsWhitespace(s[i])
    ensures |r| > 0 ==> !IsWhitespace(r[|r| - 1])
    decreases |s|
  {
    if |s| > 0 && IsWhitespace(s[|s| - 1]) then TrimEnd(s[..|s| - 1]) else s
  }

  /**
   * `s.trim()`: the longest infix of `s` with no whitespace at either end,
   * obtained by dropping only whitespace; it is empty exactly when `s` is
   * all whitespace, and it leaves an already-trimmed string alone.
   */
  function Trim(s: string): (r: string)
    ensures Trimmed(r)
    ensures WhitespaceAround(s, |s| - |TrimStart(s)|, r)
    ensures r == [] <==> AllWhitespace(s)
    ensures Trimmed(s) ==> r == s
  {
    var t := TrimStart(s);
    var r := TrimEnd(t);
    TrimFront(s, t);
    TrimBack(s, t, r);
    TrimEnds(s, t, r);
    r
  }

  lemma TrimEnds(s: string, t: string, r: string)
    requires t == TrimStart(s) && r == TrimEnd(t)
    requires WhitespaceAround(s, |s| - |t|, r)
    ensures AllWhitespace(s) ==> r == []
    ensures Trimmed(s) ==> r == s
  {
    if Trimmed(s) && |s| > 0 {
      assert t == s;
      assert r == t;
    }
  }

  lemma TrimFront(s: string, t: string)
    requires t == TrimStart(s)
    ensures AllWhitespace(s[..|s| - |t|])
  {
    var front := s[..|s| - |t|];
    forall i | 0 <= i < |front|
      ensures IsWhitespace(front[i])
    {
      assert front[i] == s[i];
    }
  }

  lemma TrimBack(s: string, t: string, r: string)
    requires |t| <= |s| && t == s[|s| - |t|..]
    requires AllWhitespace(s[..|s| - |t|])
    requires |r| <= |t| && r == t[..|r|]
    requires forall i :: |r| <= i < |t| ==> IsWhitespace(t[i])
    ensures WhitespaceAround(s, |s| - |t|, r)
    ensures r == [] ==> AllWhitespace(s)
  {
    var lead := |s| - |t|;
    var back := s[lead + |r|..];
    forall i | 0 <= i < |back|
      ensures IsWhitespace(back[i])
    {
      assert back[i] == t[|r| + i];
    }
    if r == [] {
      forall i | 0 <= i < |s|
        ensures IsWhitespace(s[i])
      {
        if i >= lead {
          assert s[i] == t[i - lead];
        } else {
          assert s[i] == s[..lead][i];
        }
      }
    }
  }

  lemma TrimIdempotent(s: string)
    ensures Trim(Trim(s)) == Trim(s)
  {
  }

  // ---------------------------------------------------------------- decimal

  predicate IsDigit(c: char) {
    '0' <= c <= '9'
  }

  predicate AllDigits(s: string) {
    forall i :: 0 <= i < |s| ==> IsDigit(s[i])
  }

  function DigitChar(d: int): (c: char)
    requires 0 <= d < 10
    ensures IsDigit(c)
  {
    (('0' as int) + d) as char
  }

  /** The value of a string of decimal digits, leading zeros allowed. */
  function DigitsValue(s: string): nat
    requires AllDigits(s)
    decreases |s|
  {
    if |s| == 0 then 0
    else DigitsValue(s[..|s| - 1]) * 10 + ((s[|s| - 1] as int) - ('0' as int))
  }

  /**
   * `n.toString()` for a non-negative integer: shortest decimal numeral of `n`.
   * JavaScript prints this form only below 1e21; above it switches to exponent form.
   */
  function NatToString(n: nat): (r: string)
    ensures |r| > 0 && AllDigits(r)
    ensures DigitsValue(r) == n
    ensures r[0] == '0' ==> n == 0
    ensures |r| == 1 <==> n < 10
    decreases n
  {
    if n < 10 then [DigitChar(n)]
    else
      var r := NatToString(n / 10) + [DigitChar(n % 10)];
      assert r[..|r| - 1] == NatToString(n / 10);
      r
  }

  /** `n.toString()` for any integer: a minus sign before the magnitude's numeral. */
  function IntToString(n: int): (r: string)
    ensures n >= 0 ==> r == NatToString(n)
    ensures n < 0 ==> |r| >= 2 && r[0] == '-' && r[1..] == NatToString(-n)
  {
    if n < 0 then "-" + NatToString(-n) else NatToString(n)
  }

  /** `s.padStart(2, "0")`: zeros in front up to length two; longer strings are kept whole. */
  function PadZero2(s: string): string {
    if |s| >= 2 then s else if |s| == 1 then "0" + s else "00"
  }

  /** Padding reaches length two, keeps the whole string at its end and puts only zeros before it. */
  lemma PadZero2Shape(s: string)
    ensures var r := PadZero2(s);
      && |r| == (if |s| >= 2 then |s| else 2)
      && r[|r| - |s|..] == s
      && forall i :: 0 <= i < |r| - |s| ==> r[i] == '0'
  {
  }

  lemma {:induction false} LeadingZero(s: string)
    requires AllDigits(s)
    ensures AllDigits("0" + s) && DigitsValue("0" + s) == DigitsValue(s)
    decreases |s|
  {
    if |s| > 0 {
      var s' := s[..|s| - 1];
      assert ("0" + s)[..|"0" + s| - 1] == "0" + s';
      LeadingZero(s');
    }
  }

  /** Zero padding keeps a numeral a numeral of the same value. */
  lemma PadZero2Value(s: string)
    requires AllDigits(s)
    ensures AllDigits(PadZero2(s))
    ensures DigitsValue(PadZero2(s)) == DigitsValue(s)
  {
    if |s| == 1 {
      assert PadZero2(s) == "0" + s;
      LeadingZero(s);
    } else if |s| == 0 {
      assert PadZero2(s) == "0" + ("0" + s);
      LeadingZero(s);
      LeadingZero("0" + s);
    }
  }

  // ------------------------------------------------------------ join / split

  /** `parts.join(":")`. */
  function JoinColon(parts: seq<string>): string
    decreases |parts|
  {
    if |parts| == 0 then ""
    else if |parts| == 1 then parts[0]
    else parts[0] + ":" + JoinColon(parts[1..])
  }

  /** `s.split(":")`: the pieces between colons, always at least one. */
  function SplitColon(s: string): (r: seq<string>)
    ensures |r| >= 1
    decreases |s|
  {
    if |s| == 0 then [""]
    else
      var rest := SplitColon(s[1..]);
      if s[0] == ':' then [""] + rest else [[s[0]] + rest[0]] + rest[1..]
  }

  predicate NoColon(s: string) {
    forall i :: 0 <= i < |s| ==> s[i] != ':'
  }

  lemma {:induction false} SplitPiece(a: string, tail: seq<string>, rest: string)
    requires NoColon(a)
    requires SplitColon(rest) == tail
    ensures SplitColon(a + rest) == [a + tail[0]] + tail[1..]
    decreases |a|
  {
    if |a| > 0 {
      assert (a + rest)[1..] == a[1..] + rest;
      SplitPiece(a[1..], tail, rest);
      assert [a[0]] + (a[1..] + tail[0]) == a + tail[0];
    } else {
      assert a + rest == rest;
      assert a + tail[0] == tail[0];
      assert tail == [tail[0]] + tail[1..];
    }
  }

  /** Splitting a join of colon-free pieces gives the pieces back. */
  lemma {:induction false} SplitJoin(parts: seq<string>)
    requires |parts| >= 1
    requires forall k :: 0 <= k < |parts| ==> NoColon(parts[k])
    ensures SplitColon(JoinColon(parts)) == parts
    decreases |parts|
  {
    if |parts| == 1 {
      SplitPiece(parts[0], [""], "");
      assert parts[0] + "" == parts[0];
    } else {
      var rest := JoinColon(parts[1..]);
      SplitJoin(parts[1..]);
      assert SplitColon(":" + rest) == [""] + parts[1..];
      assert parts[0] + ":" + rest == parts[0] + (":" + rest);
      SplitPiece(parts[0], [""] + parts[1..], ":" + rest);
      assert parts[0] + "" == parts[0];
    }
  }

  lemma DigitsHaveNoColon(s: string)
    requires AllDigits(s)
    ensures NoColon(s)
  {
  }
}

=== FILE: time_format.dfy ===
/**
 * Duration formatting of `lib/time`: "MM:SS" or "HH:MM:SS" for the clock
 * display and "<h>h <m>min" style for summaries, on whole seconds.
 */
module TimeFormat {
  import opened Wrappers
  import opened Text

  /** JavaScript's `%` for a positive divisor: the remainder takes the dividend's sign. */
  function JsRem(a: int, b: int): (r: int)
    requires b > 0
    ensures a >= 0 ==> r == a % b
    ensures a < 0 ==> -b < r <= 0
    ensures a < 0 ==> a % b == (if r == 0 then 0 else r + b)
  {
    if a >= 0 then a % b
    else
      var q, m := (-a) / b, (-a) % b;
      if m == 0 then
        ModUnique(a, b, -q, 0);
        0
      else
        ModUnique(a, b, -q - 1, b - m);
        -m
  }

  /** Writing a as b q + r with r in [0, b) fixes its remainder: r is `a % b`. */
  lemma ModUnique(a: int, b: int, q: int, r: int)
    requires b > 0 && 0 <= r < b && a == b * q + r
    ensures a % b == r
  {
    var d := q - a / b;
    assert b * d == a % b - r;
    MulAtLeast(b, d);
    MulAtLeast(b, -d);
  }

  /** A positive multiplier of a positive number is at least that number. */
  lemma MulAtLeast(b: int, d: int)
    requires b > 0
    ensures d >= 1 ==> b * d >= b
  {
    if d >= 1 {
      assert b * d == b * (d - 1) + b;
    }
  }

  /** The hour, minute and second counts both formatters start from. */
  datatype Clock = Clock(hours: int, minutes: int, seconds: int)

  /**
   * `Math.floor(s / 3600)`, `Math.floor((s % 3600) / 60)` and `s % 60`. For a
   * non-negative total these are its hours, minutes and seconds.
   */
  function Decompose(total: int): (c: Clock)
    ensures total >= 0 ==> c.hours >= 0 && 0 <= c.minutes < 60 && 0 <= c.seconds < 60
    ensures total >= 0 ==> c.hours * 3600 + c.minutes * 60 + c.seconds == total
    ensures total >= 0 ==> (c.hours == 0 <==> total < 3600)
  {
    var c := Clock(total / 3600, JsRem(total, 3600) / 60, JsRem(total, 60));
    if total >= 0 then
      ClockArith(total);
      c
    else c
  }

  /** Floor division by an hour and by a minute splits a non-negative total into its clock parts. */
  lemma ClockArith(total: int)
    requires total >= 0
    ensures var h, m, s := total / 3600, (total % 3600) / 60, total % 60;
      && h >= 0 && 0 <= m < 60 && 0 <= s < 60
      && h * 3600 + m * 60 + s == total
      && (h == 0 <==> total < 3600)
  {
    var h, rem := total / 3600, total % 3600;
    var m, s := rem / 60, rem % 60;
    assert total == 3600 * h + rem;
    assert rem == 60 * m + s;
    assert total == 60 * (60 * h + m) + s;
    ModSixty(total, 60 * h + m, s);
  }

  /** Writing a number as 60 q + r with r below 60 fixes its remainder by 60. */
  lemma ModSixty(a: int, q: int, r: int)
    requires 0 <= r < 60 && a == 60 * q + r
    ensures a % 60 == r
  {
    var d := a / 60 - q;
    assert 60 * d == r - a % 60;
    assert -1 < d < 1;
  }

  /** One clock field: the number, zero-padded to two characters. */
  function Field(n: int): string {
    PadZero2(IntToString(n))
  }

  /** The fields `formatTime` joins: hours only when positive, then minutes and seconds. */
  function Parts(c: Clock): (f: seq<string>)
    ensures |f| == (if c.hours > 0 then 3 else 2)
    ensures f[|f| - 2] == Field(c.minutes) && f[|f| - 1] == Field(c.seconds)
    ensures c.hours > 0 ==> f[0] == Field(c.hours)
  {
    var tail := [Field(c.minutes), Field(c.seconds)];
    if c.hours > 0 then [Field(c.hours)] + tail else tail
  }

  /** `formatTime`: the fields of the decomposed total joined by colons. */
  function FormatTime(total: int): string {
    JoinColon(Parts(Decompose(total)))
  }

  /** Below an hour the display is "MM:SS": two digits of minutes, a colon, two digits of seconds. */
  lemma FormatTimeShortShape(total: int)
    requires 0 <= total < 3600
    ensures var r := FormatTime(total);
      && |r| == 5 && r[2] == ':'
      && AllDigits(r[..2]) && AllDigits(r[3..])
      && DigitsValue(r[..2]) == total / 60 && DigitsValue(r[3..]) == total % 60
  {
    var c := Decompose(total);
    assert c.minutes == total / 60 && c.seconds == total % 60;
    ShortFormat(c.minutes, c.seconds);
  }

  /** Below an hour the display is two two-digit fields around one colon. */
  lemma ShortFormat(m: int, s: int)
    requires 0 <= m < 60 && 0 <= s < 60
    ensures var r := JoinColon(Parts(Clock(0, m, s)));
      && |r| == 5 && r[2] == ':'
      && AllDigits(r[..2]) && AllDigits(r[3..])
      && DigitsValue(r[..2]) == m && DigitsValue(r[3..]) == s
  {
    ShortFieldFacts(m);
    ShortFieldFacts(s);
    JoinTwo(Field(m), Field(s));
    AroundColon(Field(m), Field(s));
  }

  lemma AroundColon(a: string, b: string)
    ensures var r := a + ":" + b;
      |r| == |a| + 1 + |b| && r[..|a|] == a && r[|a|] == ':' && r[|a| + 1..] == b
  {
  }

  lemma JoinTwo(a: string, b: string)
    ensures JoinColon([a, b]) == a + ":" + b
  {
    assert [a, b][1..] == [b];
  }

  /** A number below 60 shows as exactly two digits of its value. */
  lemma ShortFieldFacts(n: int)
    requires 0 <= n < 60
    ensures |Field(n)| == 2 && AllDigits(Field(n)) && DigitsValue(Field(n)) == n
  {
    assert |NatToString(n)| <= 2 by {
      if n >= 10 {
        assert NatToString(n) == NatToString(n / 10) + [DigitChar(n % 10)];
      }
    }
    PadZero2Value(NatToString(n));
    PadZero2Shape(NatToString(n));
  }

  lemma FieldNoColon(n: int)
    ensures NoColon(Field(n))
  {
    if n >= 0 {
      FieldFacts(n);
      DigitsHaveNoColon(Field(n));
    } else {
      NegativeField(n);
    }
  }

  /** A negative number shows as a minus sign and its digits, so the field is not read as a count. */
  lemma NegativeField(n: int)
    requires n < 0
    ensures Field(n)[0] == '-' && NoColon(Field(n))
    ensures ParseField(Field(n)) == None
  {
    var d := NatToString(-n);
    assert Field(n) == "-" + d;
    assert forall i :: 1 <= i < |Field(n)| ==> Field(n)[i] == d[i - 1];
    assert !IsDigit(Field(n)[0]);
  }

  /** A non-negative number shows as its digits, padded to at least two. */
  lemma FieldFacts(n: int)
    requires n >= 0
    ensures |Field(n)| >= 2 && AllDigits(Field(n)) && DigitsValue(Field(n)) == n
    ensures Field(n)[|Field(n)| - |NatToString(n)|..] == NatToString(n)
  {
    PadZero2Value(NatToString(n));
    PadZero2Shape(NatToString(n));
  }

  // ------------------------------------------------------ reading it back

  /** A clock field read back: a non-empty run of digits. */
  function ParseField(f: string): Option<nat> {
    if |f| > 0 && AllDigits(f) then Some(DigitsValue(f)) else None
  }

  /** The reading of the fields of a clock display, "M:S" or "H:M:S", in seconds. */
  function ReadFields(f: seq<string>): Option<int> {
    if |f| == 2 && ParseField(f[0]).Some? && ParseField(f[1]).Some? then
      Some(ParseField(f[0]).value * 60 + ParseField(f[1]).value)
    else if |f| == 3 && ParseField(f[0]).Some? && ParseField(f[1]).Some? && ParseField(f[2]).Some? then
      Some(ParseField(f[0]).value * 3600 + ParseField(f[1]).value * 60 + ParseField(f[2]).value)
    else None
  }

  /** The reading of a clock display as a number of seconds. */
  function ParseClock(r: string): Option<int> {
    ReadFields(SplitColon(r))
  }

  lemma ReadField(n: int)
    requires n >= 0
    ensures ParseField(Field(n)) == Some(n)
  {
    FieldFacts(n);
  }

  lemma ReadParts(c: Clock)
    requires c.hours >= 0 && c.minutes >= 0 && c.seconds >= 0
    ensures ReadFields(Parts(c)) == Some(c.hours * 3600 + c.minutes * 60 + c.seconds)
  {
    if c.hours > 0 {
      ReadLongParts(c);
    } else {
      ReadShortParts(c);
    }
  }

  lemma ReadLongParts(c: Clock)
    requires c.hours > 0 && c.minutes >= 0 && c.seconds >= 0
    ensures ReadFields(Parts(c)) == Some(c.hours * 3600 + c.minutes * 60 + c.seconds)
  {
    var h, m, sec := Field(c.hours), Field(c.minutes), Field(c.seconds);
    assert Parts(c) == [h, m, sec];
    ReadField(c.hours);
    ReadField(c.minutes);
    ReadField(c.seconds);
    ReadThree(h, m, sec, c.hours, c.minutes, c.seconds);
  }

  lemma ReadShortParts(c: Clock)
    requires c.hours == 0 && c.minutes >= 0 && c.seconds >= 0
    ensures ReadFields(Parts(c)) == Some(c.minutes * 60 + c.seconds)
  {
    var m, sec := Field(c.minutes), Field(c.seconds);
    assert Parts(c) == [m, sec];
    ReadField(c.minutes);
    ReadField(c.seconds);
    ReadTwo(m, sec, c.minutes, c.seconds);
  }

  lemma ReadTwo(a: string, b: string, x: nat, y: nat)
    requires ParseField(a) == Some(x) && ParseField(b) == Some(y)
    ensures ReadFields([a, b]) == Some(x * 60 + y)
  {
  }

  lemma ReadThree(a: string, b: string, c: string, x: nat, y: nat, z: nat)
    requires ParseField(a) == Some(x) && ParseField(b) == Some(y) && ParseField(c) == Some(z)
    ensures ReadFields([a, b, c]) == Some(x * 3600 + y * 60 + z)
  {
  }

  /** The fields of a non-negative total's display, as `split(":")` returns them. */
  lemma SplitFormatTime(total: int)
    requires total >= 0
    ensures SplitColon(FormatTime(total)) == Parts(Decompose(total))
  {
    SplitClock(Decompose(total));
  }

  lemma SplitClock(c: Clock)
    requires c.hours >= 0 && c.minutes >= 0 && c.seconds >= 0
    ensures SplitColon(JoinColon(Parts(c))) == Parts(c)
  {
    FieldNoColon(c.minutes);
    FieldNoColon(c.seconds);
    if c.hours > 0 {
      FieldNoColon(c.hours);
      assert Parts(c) == [Field(c.hours), Field(c.minutes), Field(c.seconds)];
      SplitThree(Field(c.hours), Field(c.minutes), Field(c.seconds));
    } else {
      assert Parts(c) == [Field(c.minutes), Field(c.seconds)];
      SplitTwo(Field(c.minutes), Field(c.seconds));
    }
  }

  lemma SplitTwo(a: string, b: string)
    requires NoColon(a) && NoColon(b)
    ensures SplitColon(JoinColon([a, b])) == [a, b]
  {
    var f := [a, b];
    assert forall k :: 0 <= k < |f| ==> NoColon(f[k]);
    SplitJoin(f);
  }

  lemma SplitThree(a: string, b: string, c: string)
    requires NoColon(a) && NoColon(b) && NoColon(c)
    ensures SplitColon(JoinColon([a, b, c])) == [a, b, c]
  {
    var f := [a, b, c];
    assert forall k :: 0 <= k < |f| ==> NoColon(f[k]);
    SplitJoin(f);
  }

  /** Reading the display back gives the total: nothing is lost or truncated. */
  lemma FormatTimeRoundTrip(total: int)
    requires total >= 0
    ensures ParseClock(FormatTime(total)) == Some(total)
  {
    var c := Decompose(total);
    SplitFormatTime(total);
    ReadParts(c);
    assert ParseClock(FormatTime(total)) == ReadFields(Parts(c));
  }

  /**
   * Below zero the hours are negative and hidden, and the minutes field is
   * negative unless the total is a whole number of hours. So the display reads
   * back as nothing, or as zero when it shows "00:00".
   */
  lemma FormatTimeNegative(total: int)
    requires total < 0
    ensures ParseClock(FormatTime(total)) == (if total % 3600 == 0 then Some(0) else None)
    ensures total % 3600 == 0 ==> FormatTime(total) == "00:00"
  {
    var c := Decompose(total);
    NegativeSplit(total);
    NegativeClock(total);
    if total % 3600 == 0 {
      ReadField(0);
      ReadTwo(Field(0), Field(0), 0, 0);
      NegativeWholeHours(total);
    } else {
      NegativeField(c.minutes);
    }
  }

  /** A negative whole number of hours shows both fields as "00". */
  lemma NegativeWholeHours(total: int)
    requires total < 0
    requires Decompose(total).minutes == 0 && Decompose(total).seconds == 0
    ensures FormatTime(total) == "00:00"
  {
    var c := Decompose(total);
    assert Parts(c) == [Field(0), Field(0)];
    assert NatToString(0) == "0";
    assert Field(0) == "00";
    JoinTwo(Field(0), Field(0));
  }

  /** Below zero the display has just the minutes and seconds fields. */
  lemma NegativeSplit(total: int)
    requires total < 0
    ensures var c := Decompose(total);
      SplitColon(FormatTime(total)) == [Field(c.minutes), Field(c.seconds)]
  {
    var c := Decompose(total);
    var m, s := Field(c.minutes), Field(c.seconds);
    assert Parts(c) == [m, s];
    FieldNoColon(c.minutes);
    FieldNoColon(c.seconds);
    SplitTwo(m, s);
  }

  /** Below zero the minutes are negative, except at a whole number of hours where both fields are 0. */
  lemma NegativeClock(total: int)
    requires total < 0
    ensures var c := Decompose(total);
      if total % 3600 == 0 then c.minutes == 0 && c.seconds == 0 else c.minutes < 0
  {
    var rem := JsRem(total, 3600);
    if total % 3600 == 0 {
      assert rem == 0;
      ModUnique(total, 60, 60 * (total / 3600), 0);
    } else {
      assert rem < 0;
    }
  }

  /**
   * From one hour on there are three fields; the hour field holds every digit
   * of the hour count (padded to two, never cut) and the others are two digits
   * below 60.
   */
  lemma FormatTimeLongShape(total: int)
    requires total >= 3600
    ensures var f := SplitColon(FormatTime(total));
      && |f| == 3
      && |f[0]| == (if total / 3600 < 10 then 2 else |NatToString(total / 3600)|)
      && f[0][|f[0]| - |NatToString(total / 3600)|..] == NatToString(total / 3600)
      && ParseField(f[0]) == Some(total / 3600)
      && |f[1]| == 2 && ParseField(f[1]) == Some((total % 3600) / 60)
      && |f[2]| == 2 && ParseField(f[2]) == Some(total % 60)
  {
    var c := Decompose(total);
    SplitFormatTime(total);
    FieldFacts(c.hours);
    ShortFieldFacts(c.minutes);
    ShortFieldFacts(c.seconds);
  }

  // --------------------------------------------------------- verbose form

  /** `formatTimeVerbose`: seconds below a minute, otherwise hours and minutes with seconds dropped. */
  function FormatTimeVerbose(total: int): string {
    VerboseText(Decompose(total), total)
  }

  /** The verbose text of a decomposed total; the total itself is shown only when under a minute. */
  function VerboseText(c: Clock, total: int): string {
    if c.hours == 0 && c.minutes == 0 then IntToString(total) + "s"
    else if c.hours == 0 then IntToString(c.minutes) + "min"
    else if c.minutes == 0 then IntToString(c.hours) + "h"
    else IntToString(c.hours) + "h " + IntToString(c.minutes) + "min"
  }

  /** The four shapes of the verbose text of a non-negative total. */
  lemma FormatTimeVerboseCases(total: int)
    requires total >= 0
    ensures var r := FormatTimeVerbose(total);
      && (total < 60 ==> r == NatToString(total) + "s")
      && (60 <= total < 3600 ==> r == NatToString(total / 60) + "min")
      && (total >= 3600 && (total % 3600) / 60 == 0 ==> r == NatToString(total / 3600) + "h")
      && (total >= 3600 && (total % 3600) / 60 != 0 ==>
           r == NatToString(total / 3600) + "h " + NatToString((total % 3600) / 60) + "min")
  {
    var c := Decompose(total);
    if total >= 3600 {
      assert c.hours == total / 3600 && c.minutes == (total % 3600) / 60;
    } else if total >= 60 {
      assert c.hours == 0 && c.minutes == total / 60;
    } else {
      assert c.hours == 0 && c.minutes == 0;
    }
  }

  /** From a minute on, the verbose form depends only on the whole minutes. */
  lemma VerboseDropsSeconds(total: int)
    requires total >= 60
    ensures FormatTimeVerbose(total) == FormatTimeVerbose(total - total % 60)
  {
    var c := Decompose(total);
    DropSecondsClock(total);
    VerboseIgnoresSeconds(c, Decompose(total - total % 60), total, total - total % 60);
  }

  /** Clearing the seconds of a total keeps its hours and minutes. */
  lemma DropSecondsClock(total: int)
    requires total >= 60
    ensures var c := Decompose(total);
      && Decompose(total - total % 60) == Clock(c.hours, c.minutes, 0)
      && !(c.hours == 0 && c.minutes == 0)
  {
    var c := Decompose(total);
    assert total % 60 == c.seconds;
    DecomposeUnique(Decompose(total - c.seconds), Clock(c.hours, c.minutes, 0));
  }

  lemma VerboseIgnoresSeconds(c: Clock, d: Clock, t1: int, t2: int)
    requires c.hours == d.hours && c.minutes == d.minutes && !(c.hours == 0 && c.minutes == 0)
    ensures VerboseText(c, t1) == VerboseText(d, t2)
  {
  }

  /** Hours, minutes below 60 and seconds below 60 determine a total uniquely. */
  lemma DecomposeUnique(a: Clock, b: Clock)
    requires 0 <= a.minutes < 60 && 0 <= a.seconds < 60
    requires 0 <= b.minutes < 60 && 0 <= b.seconds < 60
    requires a.hours * 3600 + a.minutes * 60 + a.seconds == b.hours * 3600 + b.minutes * 60 + b.seconds
    ensures a == b
  {
    assert a.hours == b.hours;
    assert a.minutes == b.minutes;
  }

}

=== FILE: timer_card.dfy ===
/**
 * The per-timer card: its completion test and clock display, the alarm that
 * rings once per completion, the enabled state of its buttons, and what Space,
 * Backspace and Escape do on the card and in the full-screen (Zen) overlay.
 */
module TimerCard {
  import opened Wrappers
  import opened TimerTypes
  import opened TimeFormat
  import opened TimerEngine

  /** A timer with a positive target that has reached it. */
  predicate IsCompleted(duration: int, elapsed: int) {
    duration > 0 && elapsed >= duration
  }

  /** The time on the card: remaining time for a timer with a target, elapsed time otherwise. */
  function DisplayTime(duration: int, elapsed: int): (r: string)
    ensures duration > 0 ==> ParseClock(r) == Some(if duration - elapsed > 0 then duration - elapsed else 0)
    ensures duration <= 0 && elapsed >= 0 ==> ParseClock(r) == Some(elapsed)
    ensures duration <= 0 && elapsed < 0 ==> ParseClock(r) == (if elapsed % 3600 == 0 then Some(0) else None)
    ensures IsCompleted(duration, elapsed) ==> r == "00:00"
  {
    if duration > 0 then
      var left := if duration - elapsed > 0 then duration - elapsed else 0;
      FormatTimeRoundTrip(left);
      if left == 0 then
        ZeroDisplay();
        FormatTime(left)
      else FormatTime(left)
    else
      if elapsed >= 0 then
        FormatTimeRoundTrip(elapsed);
        FormatTime(elapsed)
      else
        FormatTimeNegative(elapsed);
        FormatTime(elapsed)
  }

  lemma ZeroDisplay()
    ensures FormatTime(0) == "00:00"
  {
    var r := FormatTime(0);
    FormatTimeShortShape(0);
    assert r[..2] == "00" && r[3..] == "00";
    assert r == r[..2] + ":" + r[3..];
  }

  // ---------------------------------------------------------------- alarm

  /** The latch (`alarmTriggeredForThisCycleRef`) and whether the alarm is sounding. */
  datatype Alarm = Alarm(latched: bool, playing: bool)

  /** The outcome of one run of the alarm effect: the new alarm state and whether `play()` was called. */
  datatype AlarmStep = AlarmStep(alarm: Alarm, played: bool)

  /**
   * The completion effect: on completion with the latch down the alarm plays
   * and the latch goes up; when not completed the latch is re-armed and the
   * alarm marked silent.
   */
  function AlarmEffect(completed: bool, duration: int, a: Alarm): (r: AlarmStep)
    ensures r.played <==> completed && duration > 0 && !a.latched
    ensures r.played ==> r.alarm == Alarm(true, true)
    ensures completed && !r.played ==> r.alarm == a
    ensures !completed ==> r.alarm == Alarm(false, false)
  {
    var fire := completed && duration > 0 && !a.latched;
    var a1 := if fire then Alarm(true, true) else a;
    AlarmStep(if !completed then Alarm(false, false) else a1, fire)
  }

  /** Re-running the effect with unchanged inputs neither plays nor changes anything. */
  lemma AlarmEffectSettles(duration: int, elapsed: int, a: Alarm)
    ensures var c := IsCompleted(duration, elapsed);
      var once := AlarmEffect(c, duration, a);
      var twice := AlarmEffect(c, duration, once.alarm);
      !twice.played && twice.alarm == once.alarm
  {
  }

  /** One observed render of the card: the timer's target and elapsed seconds. */
  datatype Frame = Frame(duration: int, elapsed: int)

  function Completions(frames: seq<Frame>): (r: seq<bool>)
    ensures |r| == |frames|
    ensures forall i :: 0 <= i < |frames| ==> r[i] == IsCompleted(frames[i].duration, frames[i].elapsed)
  {
    seq(|frames|, i requires 0 <= i < |frames| => IsCompleted(frames[i].duration, frames[i].elapsed))
  }

  /** How many times the completion flag turns on, starting from `prev`. */
  function Rises(prev: bool, cs: seq<bool>): nat
    decreases |cs|
  {
    if |cs| == 0 then 0 else (if cs[0] && !prev then 1 else 0) + Rises(cs[0], cs[1..])
  }

  /** How many times `play()` is called when the effect runs once per frame. */
  function CountPlays(frames: seq<Frame>, a: Alarm): nat
    decreases |frames|
  {
    if |frames| == 0 then 0
    else
      var step := AlarmEffect(IsCompleted(frames[0].duration, frames[0].elapsed), frames[0].duration, a);
      (if step.played then 1 else 0) + CountPlays(frames[1..], step.alarm)
  }

  /** The alarm plays exactly once each time the timer becomes completed, and never otherwise. */
  lemma {:induction false} OneAlarmPerCompletion(frames: seq<Frame>, a: Alarm)
    ensures CountPlays(frames, a) == Rises(a.latched, Completions(frames))
    decreases |frames|
  {
    if |frames| > 0 {
      var c := IsCompleted(frames[0].duration, frames[0].elapsed);
      var step := AlarmEffect(c, frames[0].duration, a);
      assert step.alarm.latched == c;
      assert Completions(frames)[1..] == Completions(frames[1..]);
      OneAlarmPerCompletion(frames[1..], step.alarm);
    }
  }

  // --------------------------------------------------------------- actions

  /** The side effects of the card's handlers, in the order they happen. */
  datatype Effect = StopSound | ResetRequested

  /** `handleStopAlarm`: silence the alarm; the latch stays up. */
  function StopAlarm(a: Alarm): (r: (Alarm, seq<Effect>))
    ensures !r.0.playing && r.0.latched == a.latched
    ensures r.1 == [StopSound]
  {
    (a.(playing := false), [StopSound])
  }

  /** `handleStopAlarmAndReset`: silence the alarm, then ask the engine for a reset. */
  function StopAlarmAndReset(a: Alarm): (r: (Alarm, seq<Effect>))
    ensures !r.0.playing && r.0.latched == a.latched
    ensures r.1 == [StopSound, ResetRequested]
  {
    (a.(playing := false), [StopSound, ResetRequested])
  }

  /**
   * After stop-and-reset the reset timer is no longer completed, so the next
   * effect run re-arms the latch, and a later completion rings again.
   */
  lemma ResetRearmsAlarm(s: State, k: nat, now: int, a: Alarm, later: Frame)
    requires k < |s.timers|
    requires IsCompleted(later.duration, later.elapsed)
    ensures var t := ResetTimer(s, s.timers[k].id, now).timers[k];
      var rearmed := AlarmEffect(IsCompleted(t.duration, t.elapsed), t.duration, StopAlarmAndReset(a).0);
      && rearmed.alarm == Alarm(false, false)
      && AlarmEffect(true, later.duration, rearmed.alarm).played
  {
  }

  /** The timer a tick completes shows as completed with "00:00" on its card. */
  lemma TickCompletionShows(t: Timer, now: int)
    requires TickOne(t, now) != t
    ensures var c := TickOne(t, now);
      IsCompleted(c.duration, c.elapsed) && DisplayTime(c.duration, c.elapsed) == "00:00"
  {
  }

  // --------------------------------------------------------------- buttons

  /** The main control: a stop button while the alarm sounds, otherwise play/pause. */
  datatype MainButton = StopAlarmButton | PlayPause(disabled: bool, showsPause: bool)

  function MainButtonOf(completed: bool, alarmPlaying: bool, running: bool): (b: MainButton)
    ensures b.StopAlarmButton? <==> alarmPlaying
    ensures b.PlayPause? ==> (b.disabled <==> completed) && (b.showsPause <==> running)
  {
    if alarmPlaying then StopAlarmButton
    else PlayPause(completed && !alarmPlaying, running)
  }

  /** The reset button is disabled while no second has been banked. */
  predicate ResetDisabled(elapsed: int) {
    elapsed == 0
  }

  // ---------------------------------------------------------------- keys

  /** The handler a key is bound to; `NoAction` stands for an undefined handler. */
  datatype Action = NoAction | Toggle | Reset | StopAndReset | Close

  /** Space on the card (outside Zen mode only). */
  function CardSpace(zen: bool, alarmPlaying: bool, hovered: bool, elapsed: int): (r: Action)
    ensures zen ==> r == NoAction
    ensures !zen && alarmPlaying ==> r == StopAndReset
    ensures !zen && !alarmPlaying ==> (r == Toggle <==> hovered || elapsed > 0)
    ensures r != Reset && r != Close
  {
    if !zen then
      if alarmPlaying then StopAndReset
      else if hovered || elapsed > 0 then Toggle
      else NoAction
    else NoAction
  }

  /** Backspace on the card: bound outside Zen mode once time was banked; hovering plays no part. */
  function CardBackspace(zen: bool, alarmPlaying: bool, hovered: bool, elapsed: int): (r: Action)
    ensures r != NoAction <==> !zen && elapsed > 0
    ensures r != NoAction ==> (r == StopAndReset <==> alarmPlaying) && (r == Reset <==> !alarmPlaying)
  {
    if !zen && (hovered || elapsed > 0) && elapsed > 0 then
      if alarmPlaying then StopAndReset else Reset
    else NoAction
  }

  /** The card's Backspace binding does not depend on hovering. */
  lemma BackspaceIgnoresHover(zen: bool, alarmPlaying: bool, elapsed: int)
    ensures CardBackspace(zen, alarmPlaying, true, elapsed) == CardBackspace(zen, alarmPlaying, false, elapsed)
  {
  }

  /** Space in the Zen overlay. */
  function OverlaySpace(alarmPlaying: bool): Action {
    if alarmPlaying then StopAndReset else Toggle
  }

  /** Backspace in the Zen overlay. */
  function OverlayBackspace(alarmPlaying: bool): Action {
    if alarmPlaying then StopAndReset else Reset
  }

  /** Escape in the Zen overlay closes it; the card binds nothing to Escape. */
  function OverlayEscape(): Action {
    Close
  }

  /** Space as the user experiences it: the overlay's binding in Zen mode, the card's otherwise. */
  function SpaceAction(zen: bool, alarmPlaying: bool, hovered: bool, elapsed: int): Action {
    if zen then OverlaySpace(alarmPlaying) else CardSpace(zen, alarmPlaying, hovered, elapsed)
  }

  /**
   * Whichever view is showing, Space silences and resets while the alarm
   * sounds, and otherwise only ever toggles, never resets.
   */
  lemma SpaceSilencesAlarm(zen: bool, alarmPlaying: bool, hovered: bool, elapsed: int)
    ensures alarmPlaying ==> SpaceAction(zen, alarmPlaying, hovered, elapsed) == StopAndReset
    ensures !alarmPlaying ==> SpaceAction(zen, alarmPlaying, hovered, elapsed) in {Toggle, NoAction}
    ensures SpaceAction(zen, alarmPlaying, hovered, elapsed) == NoAction <==> !zen && !alarmPlaying && !hovered && elapsed <= 0
  {
  }

  /**
   * Backspace on the card and in the overlay agree: stop-and-reset while the
   * alarm sounds, a plain reset otherwise; Escape only ever closes the overlay.
   */
  lemma BackspaceAgrees(alarmPlaying: bool, hovered: bool, elapsed: int)
    requires elapsed > 0
    ensures CardBackspace(false, alarmPlaying, hovered, elapsed) == OverlayBackspace(alarmPlaying)
    ensures OverlayBackspace(alarmPlaying) == (if alarmPlaying then StopAndReset else Reset)
    ensures OverlayEscape() == Close && OverlayEscape() != OverlaySpace(alarmPlaying)
  {
  }

  /**
   * Backspace on the card is only bound while the reset button is enabled; the
   * converse fails for a negative count, which enables the button but binds nothing.
   */
  lemma BackspaceNeedsResetEnabled(alarmPlaying: bool, hovered: bool, elapsed: int)
    ensures CardBackspace(false, alarmPlaying, hovered, elapsed) != NoAction ==> !ResetDisabled(elapsed)
    ensures elapsed < 0 ==> !ResetDisabled(elapsed) && CardBackspace(false, alarmPlaying, hovered, elapsed) == NoAction
  {
  }
}

=== FILE: timer_engine.dfy ===
/**
 * The timer accounting engine of the provider in `timer-context`: every user
 * action and the periodic tick is a pure transition from one `State` to the
 * next. The wall clock (`now`, milliseconds) and fresh ids are parameters.
 */
module TimerEngine {
  import opened Wrappers
  import opened Sums
  import opened Text
  import opened TimerTypes

  /** The provider's state: timers, ledger, day key and the day's banked seconds. */
  datatype State = State(
    timers: seq<Timer>,
    history: seq<DailyRecord>,
    lastActiveDate: string,
    accumulated: int
  )

  /** The optional fields of an edit; an absent field is left alone. */
  datatype Updates = Updates(name: Option<string>, duration: Option<int>)

  // ------------------------------------------------------------ elapsed time

  /** A start stamp takes part only when present and truthy: JavaScript reads 0 as false. */
  predicate HasStamp(t: Timer) {
    t.lastStartedAt.Some? && t.lastStartedAt.value != 0
  }

  /** Whole seconds between two millisecond stamps, rounded down (`Math.floor`). */
  function SegmentSeconds(start: int, now: int): (r: int)
    ensures r * 1000 <= now - start < r * 1000 + 1000
    ensures r >= 0 <==> now >= start
  {
    (now - start) / 1000
  }

  /** Seconds of a timer at `now`: its banked seconds plus its open segment, if any. */
  function LiveElapsed(t: Timer, now: int): int {
    if t.isRunning && HasStamp(t) then t.elapsed + SegmentSeconds(t.lastStartedAt.value, now)
    else t.elapsed
  }

  function LiveList(ts: seq<Timer>, now: int): (r: seq<int>)
    ensures |r| == |ts|
    ensures forall i :: 0 <= i < |ts| ==> r[i] == LiveElapsed(ts[i], now)
  {
    seq(|ts|, i requires 0 <= i < |ts| => LiveElapsed(ts[i], now))
  }

  /** "Total today": the banked seconds plus the live seconds of every timer. */
  function TotalToday(s: State, now: int): int {
    s.accumulated + Sum(LiveList(s.timers, now))
  }

  // ---------------------------------------------------------------- lookups

  /** `timers.find(t => t.id === id)`, as the index of the first match. */
  function FindIndex(ts: seq<Timer>, id: string): (r: Option<nat>)
    ensures r.Some? ==> r.value < |ts| && ts[r.value].id == id
    ensures r.Some? ==> forall j :: 0 <= j < r.value ==> ts[j].id != id
    ensures r.None? <==> forall j :: 0 <= j < |ts| ==> ts[j].id != id
    decreases |ts|
  {
    if |ts| == 0 then None
    else if ts[0].id == id then Some(0)
    else match FindIndex(ts[1..], id)
      case None => None
      case Some(k) => Some(k + 1)
  }

  /** `timers.filter(t => t.id !== id)`. */
  function WithoutId(ts: seq<Timer>, id: string): (r: seq<Timer>)
    ensures |r| <= |ts|
    ensures forall i :: 0 <= i < |r| ==> r[i].id != id && r[i] in ts
    ensures forall j :: 0 <= j < |ts| && ts[j].id != id ==> ts[j] in r
    ensures (forall j :: 0 <= j < |ts| ==> ts[j].id != id) ==> r == ts
    decreases |ts|
  {
    if |ts| == 0 then []
    else
      var rest := WithoutId(ts[1..], id);
      assert forall j :: 1 <= j < |ts| ==> ts[j] == ts[1..][j - 1];
      if ts[0].id == id then rest else [ts[0]] + rest
  }

  /** The filter works piecewise: filtering a concatenation filters each part and keeps their order. */
  lemma {:induction false} WithoutIdAppend(a: seq<Timer>, b: seq<Timer>, id: string)
    ensures WithoutId(a + b, id) == WithoutId(a, id) + WithoutId(b, id)
    decreases |a|
  {
    if |a| > 0 {
      assert (a + b)[1..] == a[1..] + b;
      WithoutIdAppend(a[1..], b, id);
    } else {
      assert a + b == b;
    }
  }

  predicate UniqueIds(ts: seq<Timer>) {
    forall i, j :: 0 <= i < j < |ts| ==> ts[i].id != ts[j].id
  }

  /** With unique ids, the filter cuts out exactly the one matching timer and keeps the order. */
  lemma {:induction false} WithoutUniqueId(ts: seq<Timer>, k: nat)
    requires UniqueIds(ts) && k < |ts|
    ensures WithoutId(ts, ts[k].id) == ts[..k] + ts[k + 1..]
    decreases |ts|
  {
    var id := ts[k].id;
    var tail := ts[1..];
    if k == 0 {
      OthersAfterFirst(ts);
      assert ts[..0] + ts[1..] == tail;
    } else {
      assert ts[0].id != id;
      UniqueTail(ts);
      assert tail[k - 1] == ts[k];
      WithoutUniqueId(tail, k - 1);
      ConsSplice(ts, k);
    }
  }

  lemma ConsSplice(ts: seq<Timer>, k: nat)
    requires 0 < k < |ts|
    ensures [ts[0]] + (ts[1..][..k - 1] + ts[1..][k..]) == ts[..k] + ts[k + 1..]
  {
    assert ts[..k] == [ts[0]] + ts[1..][..k - 1];
    assert ts[k + 1..] == ts[1..][k..];
  }

  /** With unique ids no later timer shares the first one's id, so the filter keeps the whole tail. */
  lemma OthersAfterFirst(ts: seq<Timer>)
    requires |ts| > 0 && UniqueIds(ts)
    ensures WithoutId(ts, ts[0].id) == ts[1..]
  {
    var tail := ts[1..];
    forall j | 0 <= j < |tail| ensures tail[j].id != ts[0].id {
      assert tail[j] == ts[j + 1];
    }
  }

  lemma UniqueTail(ts: seq<Timer>)
    requires |ts| > 0 && UniqueIds(ts)
    ensures UniqueIds(ts[1..])
  {
    var tail := ts[1..];
    forall i, j | 0 <= i < j < |tail| ensures tail[i].id != tail[j].id {
      assert tail[i] == ts[i + 1] && tail[j] == ts[j + 1];
    }
  }

  // ------------------------------------------------------------------ names

  /** `name.trim() || "Timer sin nombre"`. */
  function NameOrDefault(name: string): (r: string)
    ensures Trimmed(r) && r != []
    ensures AllWhitespace(name) ==> r == DefaultName
    ensures !AllWhitespace(name) ==> r == Trim(name)
  {
    var t := Trim(name);
    if t == [] then DefaultName else t
  }

  // ------------------------------------------------------- per-timer steps

  /** The fields an accounting step never touches. */
  predicate SameIdentity(a: Timer, b: Timer) {
    a.id == b.id && a.name == b.name && a.duration == b.duration && a.createdAt == b.createdAt
  }

  /**
   * The toggle of one timer: a running timer is paused with its open segment
   * banked (nothing when the stamp is falsy, and not clamped when the clock
   * went back); a paused timer is started at `now`. Completion is not checked.
   */
  function PauseOrStart(t: Timer, now: int): (r: Timer)
    ensures SameIdentity(r, t)
    ensures t.isRunning ==> !r.isRunning && r.lastStartedAt == None && r.elapsed == LiveElapsed(t, now)
    ensures !t.isRunning ==> r.isRunning && r.lastStartedAt == Some(now) && r.elapsed == t.elapsed
    ensures LiveElapsed(r, now) == LiveElapsed(t, now)
  {
    if t.isRunning then
      var runningTime := if HasStamp(t) then SegmentSeconds(t.lastStartedAt.value, now) else 0;
      t.(isRunning := false, elapsed := t.elapsed + runningTime, lastStartedAt := None)
    else
      t.(isRunning := true, lastStartedAt := Some(now))
  }

  /** The tick of one timer: a running timer whose live seconds reach a positive target completes. */
  function TickOne(t: Timer, now: int): (r: Timer)
    ensures SameIdentity(r, t)
    ensures r != t ==> r.elapsed == r.duration > 0 && !r.isRunning && r.lastStartedAt == None
    ensures r != t <==> t.isRunning && HasStamp(t) && 0 < t.duration <= LiveElapsed(t, now)
    ensures t.isRunning && HasStamp(t) && t.duration > 0 ==>
      LiveElapsed(r, now) == if LiveElapsed(t, now) < t.duration then LiveElapsed(t, now) else t.duration
  {
    if t.isRunning && HasStamp(t) && t.duration > 0 && LiveElapsed(t, now) >= t.duration then
      t.(elapsed := t.duration, isRunning := false, lastStartedAt := None)
    else t
  }

  /** A timer with no seconds, stopped and without a stamp. */
  function Zeroed(t: Timer): (r: Timer)
    ensures SameIdentity(r, t)
    ensures forall now :: LiveElapsed(r, now) == 0
    ensures r.elapsed == 0 && !r.isRunning && r.lastStartedAt == None
  {
    t.(elapsed := 0, isRunning := false, lastStartedAt := None)
  }

  /** The stop-all step of one timer: it ends not running, its live seconds banked at `now`. */
  function StopOne(t: Timer, now: int): (r: Timer)
    ensures SameIdentity(r, t)
    ensures !r.isRunning && r.lastStartedAt == None
    ensures r.elapsed == LiveElapsed(t, now)
    ensures !t.isRunning ==> r.elapsed == t.elapsed
  {
    if t.isRunning && HasStamp(t) then
      t.(isRunning := false, elapsed := t.elapsed + SegmentSeconds(t.lastStartedAt.value, now), lastStartedAt := None)
    else
      t.(isRunning := false, lastStartedAt := None)
  }

  /** The edit of one paused timer: a given name is trimmed with the default fallback, a given duration is taken as is. */
  function EditOne(t: Timer, u: Updates): (r: Timer)
    ensures r.id == t.id && r.createdAt == t.createdAt
    ensures r.elapsed == t.elapsed && r.isRunning == t.isRunning && r.lastStartedAt == t.lastStartedAt
    ensures r.name == if u.name.Some? then NameOrDefault(u.name.value) else t.name
    ensures r.duration == if u.duration.Some? then u.duration.value else t.duration
  {
    var named := if u.name.Some? then t.(name := NameOrDefault(u.name.value)) else t;
    if u.duration.Some? then named.(duration := u.duration.value) else named
  }

  // ------------------------------------------------------------ operations

  /** `addTimer`: one new stopped timer at the end; `minutes` is not clamped. */
  function AddTimer(s: State, id: string, name: string, minutes: int, createdAt: string): (r: State)
    ensures |r.timers| == |s.timers| + 1 && r.timers[..|s.timers|] == s.timers
    ensures var t := r.timers[|s.timers|];
      && t.id == id && t.name == NameOrDefault(name) && t.createdAt == createdAt
      && t.duration == minutes * 60 && t.elapsed == 0 && !t.isRunning && t.lastStartedAt == None
    ensures r.history == s.history && r.lastActiveDate == s.lastActiveDate && r.accumulated == s.accumulated
  {
    var t := Timer(id, NameOrDefault(name), minutes * 60, 0, false, createdAt, None);
    s.(timers := s.timers + [t])
  }

  /**
   * `removeTimer`: the first timer with `id` has its live seconds banked when
   * positive, then every timer with `id` is dropped.
   */
  function RemoveTimer(s: State, id: string, now: int): (r: State)
    ensures r.timers == WithoutId(s.timers, id)
    ensures FindIndex(s.timers, id).None? ==> r == s
    ensures FindIndex(s.timers, id).Some? ==>
      var live := LiveElapsed(s.timers[FindIndex(s.timers, id).value], now);
      r.accumulated == s.accumulated + (if live > 0 then live else 0)
    ensures r.history == s.history && r.lastActiveDate == s.lastActiveDate
  {
    var k := FindIndex(s.timers, id);
    var banked := if k.Some? && LiveElapsed(s.timers[k.value], now) > 0
      then s.accumulated + LiveElapsed(s.timers[k.value], now) else s.accumulated;
    s.(timers := WithoutId(s.timers, id), accumulated := banked)
  }

  /**
   * `toggleTimer`: every timer with `id` is paused or started; the others are
   * untouched. What a pause or a start does is stated by `PauseOrStart`.
   */
  function ToggleTimer(s: State, id: string, now: int): (r: State)
    ensures |r.timers| == |s.timers|
    ensures forall i :: 0 <= i < |s.timers| ==>
      && (s.timers[i].id == id ==> r.timers[i] == PauseOrStart(s.timers[i], now))
      && (s.timers[i].id != id ==> r.timers[i] == s.timers[i])
    ensures r.history == s.history && r.lastActiveDate == s.lastActiveDate && r.accumulated == s.accumulated
  {
    var ts := s.timers;
    s.(timers := seq(|ts|, i requires 0 <= i < |ts| =>
      if ts[i].id == id then PauseOrStart(ts[i], now) else ts[i]))
  }

  /**
   * The periodic tick: running timers that reached their target complete; no
   * other change. What completion does to one timer is stated by `TickOne`.
   */
  function Tick(s: State, now: int): (r: State)
    ensures |r.timers| == |s.timers|
    ensures forall i :: 0 <= i < |s.timers| ==> r.timers[i] == TickOne(s.timers[i], now)
    ensures r.history == s.history && r.lastActiveDate == s.lastActiveDate && r.accumulated == s.accumulated
  {
    var ts := s.timers;
    s.(timers := seq(|ts|, i requires 0 <= i < |ts| => TickOne(ts[i], now)))
  }

  /**
   * `resetTimer`: the first timer with `id` has its live seconds banked when
   * positive, then every timer with `id` is zeroed and stopped.
   */
  function ResetTimer(s: State, id: string, now: int): (r: State)
    ensures |r.timers| == |s.timers|
    ensures forall i :: 0 <= i < |s.timers| ==>
      && (s.timers[i].id == id ==> r.timers[i] == Zeroed(s.timers[i]))
      && (s.timers[i].id != id ==> r.timers[i] == s.timers[i])
    ensures FindIndex(s.timers, id).None? ==> r == s
    ensures FindIndex(s.timers, id).Some? ==>
      var live := LiveElapsed(s.timers[FindIndex(s.timers, id).value], now);
      r.accumulated == s.accumulated + (if live > 0 then live else 0)
    ensures r.history == s.history && r.lastActiveDate == s.lastActiveDate
  {
    var ts := s.timers;
    var k := FindIndex(ts, id);
    var banked := if k.Some? && LiveElapsed(ts[k.value], now) > 0
      then s.accumulated + LiveElapsed(ts[k.value], now) else s.accumulated;
    var ts' := seq(|ts|, i requires 0 <= i < |ts| => if ts[i].id == id then Zeroed(ts[i]) else ts[i]);
    assert k.None? ==> ts' == ts;
    s.(timers := ts', accumulated := banked)
  }

  /** `stopAllTimers`: every timer is stopped, each banking its open segment at one shared `now`. */
  function StopAllTimers(s: State, now: int): (r: State)
    ensures |r.timers| == |s.timers|
    ensures forall i :: 0 <= i < |s.timers| ==>
      && SameIdentity(r.timers[i], s.timers[i])
      && !r.timers[i].isRunning && r.timers[i].lastStartedAt == None
      && r.timers[i].elapsed == LiveElapsed(s.timers[i], now)
    ensures r.history == s.history && r.lastActiveDate == s.lastActiveDate && r.accumulated == s.accumulated
  {
    var ts := s.timers;
    s.(timers := seq(|ts|, i requires 0 <= i < |ts| => StopOne(ts[i], now)))
  }

  /** `editTimer`: only a paused timer with `id` is edited; running ones and other ids are untouched. */
  function EditTimer(s: State, id: string, u: Updates): (r: State)
    ensures |r.timers| == |s.timers|
    ensures forall i :: 0 <= i < |s.timers| ==>
      && (s.timers[i].id == id && !s.timers[i].isRunning ==> r.timers[i] == EditOne(s.timers[i], u))
      && (s.timers[i].id != id || s.timers[i].isRunning ==> r.timers[i] == s.timers[i])
    ensures FindIndex(s.timers, id).None? ==> r == s
    ensures r.history == s.history && r.lastActiveDate == s.lastActiveDate && r.accumulated == s.accumulated
  {
    var ts := s.timers;
    var ts' := seq(|ts|, i requires 0 <= i < |ts| =>
      if ts[i].id == id && !ts[i].isRunning then EditOne(ts[i], u) else ts[i]);
    assert FindIndex(ts, id).None? ==> ts' == ts;
    s.(timers := ts')
  }
}

=== FILE: timer_types.dfy ===
/** The records of the timer application: a timer, one closed day, the persisted state. */
module TimerTypes {
  import opened Wrappers

  /**
   * One tracked activity. `duration` is the target in seconds (0 = no target),
   * `elapsed` the seconds banked from closed run segments, `lastStartedAt` the
   * millisecond timestamp at which the open segment began.
   */
  datatype Timer = Timer(
    id: string,
    name: string,
    duration: int,
    elapsed: int,
    isRunning: bool,
    createdAt: string,
    lastStartedAt: Option<int>
  )

  /** A closed day: its date key, its total in seconds and the timers as they stood. */
  datatype DailyRecord = DailyRecord(date: string, totalSeconds: int, timers: seq<Timer>)

  /** The day totals of a ledger, in ledger order. */
  function HistoryTotals(h: seq<DailyRecord>): (r: seq<int>)
    ensures |r| == |h|
    ensures forall i :: 0 <= i < |h| ==> r[i] == h[i].totalSeconds
  {
    seq(|h|, i requires 0 <= i < |h| => h[i].totalSeconds)
  }

  /** The declared shape of the persisted state; it has no accumulator field. */
  datatype AppState = AppState(timers: seq<Timer>, history: seq<DailyRecord>, lastActiveDate: string)

  /** The placeholder name given to a timer whose name is blank. */
  const DefaultName: string := "Timer sin nombre"
}

=== FILE: wrappers.dfy ===
/** Values that may be missing: the source's `undefined` fields and parses that can fail. */
module Wrappers {

  datatype Option<T> = None | Some(value: T)

  /** `x ?? fallback`: the present value, or the fallback when there is none. */
  function ValueOr<T>(x: Option<T>, fallback: T): T {
    if x.Some? then x.value else fallback
  }
}
